=== FILE: README.md ===
# configurator core in Dafny

A model of the reflection core of the Go library `configurator`
(`reflect.go`). The library binds configuration values to the fields of a
caller's struct in two steps:

- **The struct walker** (`getStructInfo`, `getFieldInfo`).
  - It takes a pointer to a struct and produces a flat catalog of field
    entries (`fieldInfo`), one per exported leaf field, in declaration order.
  - Embedded structs are flattened. Nil pointers to structs are replaced by
    pointers to fresh zero structs, and the walk enters them.
  - `time.Time` and `*time.Time` fields are opaque leaves.
  - Each entry carries the directives parsed from the field's `config`
    annotation (`parseTag`): `env`, `flag` and `default`, in a bare form or in
    the `=VALUE` form.
  - From its parent chain an entry derives three things: its environment
    key, its flag key and its default.
- **The coercer** (`setFieldValue`, `setPtrValue`, `setSliceValue`). It
  converts a raw string into a field's value according to the field's
  declared kind.

The modules follow the file's structure:

| module | file | content |
|---|---|---|
| `Errors` | errors.dfy | the error classes, `Option`, `Result` |
| `Strings` | strings.dfy | `strings.Split`, `Join`, `HasPrefix`, `TrimPrefix`, ASCII `ToUpper`/`ToLower`, with split/join round trips |
| `Tags` | tags.dfy | the annotation parser and a declarative reading of it |
| `Types` | types.dfy | Go types and values as finite trees, zero values, locations inside a value |
| `Fields` | fields.dfy | catalog entries, the nesting path and the derived keys |
| `Walker` | walker.dfy | the walk, as a pure function returning the catalog and the updated value |
| `WalkerProperties` | walker_lemmas.dfy | idempotence, bad annotations, flat structs, handles, auto-creation |
| `CatalogShape` | catalog_shape.dfy | the catalog of arbitrarily nested structs: its entries are the leaves of the updated value, in declaration order, once each; their paths name the fields entered; a bad annotation anywhere fails the build |
| `Coerce` | coerce.dfy | the coercion table, and the coercion as evidently intended |
| `Scenarios` | scenarios.dfy | a two-field struct worked through from annotation to keys |

Modelling choices:

- The walker's mutation of the caller's struct is returned explicitly: the
  walk yields the catalog together with the updated value.
- An entry's `reflect.Value` handle is modelled as a location: the path of
  field and dereference steps from the root pointer to the value it
  describes.
- The literal parsers of Go's standard library (`strconv.ParseBool`,
  `ParseInt`, `ParseUint`, `ParseFloat`, `time.ParseDuration`,
  `time.Parse(time.RFC3339, …)`) are parameters of the coercer. So every
  property of the coercer holds whatever those parsers accept.

Three behaviours of the code are modelled as written:

- **Timestamps.** A successful timestamp coercion writes the value
  (reflect.go:319) and then reaches the unconditional "unsupported type"
  return (reflect.go:321).
- **Pointer fields.** A pointer field receives the address of the parser's
  result variable (`&i` is an `*int64` at reflect.go:341; likewise `*uint64`
  and `*float64`), not a fresh instance of the pointed-to type.
- **Nested structs.** The `InvalidConfig` checks at reflect.go:102-108 run on
  every nested call as well, but there they can never fire: nested structs
  are always passed on as struct pointers. So `InvalidConfig` arises only at
  the root.

## Model

| member | source | states |
|---|---|---|
| Strings.Split | reflect.go:207 | splitting on a separator yields one more part than there are separators, and no part contains the separator |
| Strings.JoinSplit | reflect.go:207 | joining the parts of a split with the same separator gives back the original string |
| Strings.SplitJoin | reflect.go:71 | parts free of the separator are recovered exactly by splitting their join |
| Strings.TrimPrefix | reflect.go:231 | trimming a present prefix leaves the rest, such that prefix + rest is the input; an absent prefix leaves the input unchanged |
| Tags.KeywordsDisjoint | reflect.go:209-222 | no token starts with two different directive keywords, so the order of the switch cases does not matter |
| Tags.Classify | reflect.go:209-222 | a token is assigned to a directive family exactly when it starts with that family's keyword |
| Tags.ParseDirective | reflect.go:228-259 | a directive token sets its `has` flag; the `=VALUE` form stores the non-empty VALUE; an empty VALUE is InvalidTagFormat; other families are untouched |
| Tags.ApplyTokenSpec | reflect.go:208-222 | one token fails exactly when it is `env=`, `flag=` or `default=`; otherwise it sets the flags of the families it names and the value of the explicit form |
| Tags.ParseTokensSpec | reflect.go:204-226 | the token loop fails exactly when some token is malformed; otherwise a family is present iff some token names it, and its value is the last explicit value given |
| Tags.ParseTagSpec | reflect.go:204-226 | the same characterisation of parseTag, over the comma-separated tokens of the annotation |
| Tags.ParsedValuesNonEmptyOrAbsent | reflect.go:229-235 | a parsed directive set never holds a value for a family whose flag is unset |
| Tags.RepeatedDirective | reflect.go:228-258 | a repeated directive keeps its flag set; a later explicit token overrides the value, and a later bare token keeps the earlier value |
| Tags.EmptyAnnotation | reflect.go:205-207 | a field without annotation parses to the empty directive set |
| Types.Zero | reflect.go:139 | the zero value of a type is well typed and has that type; it is a struct value exactly for struct types, a nil pointer for pointer types, and a plain value otherwise |
| Fields.Path | reflect.go:60-66 | a path has one name per ancestor plus one, and ends with the entry's own name |
| Fields.CollectPath | reflect.go:60-66 | the loop that prepends ancestor names computes the path from the outermost ancestor down to the entry |
| Fields.PathShape | reflect.go:60-66 | the path of an entry starts with the name of its outermost ancestor, the root-level field the chain of parents ends at |
| Fields.EmptyKeyMeansAbsent | reflect.go:68-86 | for a named field, an empty key means exactly that the directive was not given |
| Fields.EnvKeyFromAnnotation | reflect.go:68-76 | in terms of the annotation's tokens: the env key is empty when no token names `env`; it is the last explicit `env=KEY` when there is one; otherwise it is the nesting path joined with `_` and upper-cased |
| Fields.FlagKeyFromAnnotation | reflect.go:78-86 | the same for the flag key: empty when no token names `flag`; the last explicit `flag=KEY` if any; else the path joined with `-` and lower-cased |
| Fields.DefValFromAnnotation | reflect.go:88-93 | the default is the last explicit `default=VALUE` of the annotation, or empty; `default` counts as given exactly when some token names it |
| Fields.ExplicitEnvKeyIgnoresPath | reflect.go:68-76 | two entries with the same annotation holding an explicit `env=KEY` have that KEY as env key, wherever each is nested |
| Fields.ExplicitFlagKeyIgnoresPath | reflect.go:78-86 | two entries with the same annotation holding an explicit `flag=KEY` have that KEY as flag key, wherever each is nested |
| Fields.EnvKeySegments | reflect.go:71 | the derived env key splits back on `_` into the upper-cased path when no name contains `_` |
| Fields.FlagKeySegments | reflect.go:81 | the derived flag key splits back on `-` into the lower-cased path when no name contains `-` |
| Walker.NewFieldInfo | reflect.go:169-182 | an entry is created exactly when no comma-separated token of the annotation is malformed (`env=`, `flag=`, `default=`), and then each directive is present iff some token names it, with the last explicit value; otherwise InvalidTagFormat |
| Walker.Build | reflect.go:100-108 | InvalidConfig exactly when the input is not a non-nil pointer to a struct; valid annotations guarantee success; on success every entry is an exported field with its parsed annotation, and the value changes only where a nil struct pointer became a pointer to a walked zero struct |
| Walker.WalkStruct | reflect.go:110-166 | the only failure inside a struct is InvalidTagFormat; with valid annotations the walk succeeds, keeping the value well typed |
| Walker.WalkFrom | reflect.go:113-164 | the field loop fails only with InvalidTagFormat; on success each field's value is extended in place and the entries hang below the current parent |
| Walker.WalkField | reflect.go:118-130 | an unexported field contributes nothing and stays unchanged; a time field is one entry and is not entered; a bad annotation on an exported field fails |
| Walker.Descend | reflect.go:132-142 | pointer resolution only fails on a bad annotation; a nil pointer to a struct becomes a pointer to a walked zero struct, a nil pointer to anything else stays nil as a single entry, and nothing else changes |
| Walker.Settle | reflect.go:144-163 | a non-struct is exactly one entry with the value unchanged; a malformed annotation fails even on a struct field; every entry is an exported field with its parsed annotation and hangs below the given parent (StructFieldIsParent states where a struct is entered) |
| WalkerProperties.BuildIdempotent | reflect.go:100-167 | building again on the updated value yields the same catalog and leaves the value as it is |
| WalkerProperties.BadTagAbortsFields | reflect.go:114-147 | a malformed annotation on any exported field of the loop makes the whole loop fail |
| WalkerProperties.BadTagAbortsBuild | reflect.go:114-158 | a malformed annotation on an exported top-level field makes the build fail with InvalidTagFormat, with no partial catalog |
| WalkerProperties.FlatStructCatalog | reflect.go:114-164 | for a struct without pointer or struct fields, the catalog lists exactly the exported fields in declaration order, all at root level |
| WalkerProperties.StructFieldIsParent | reflect.go:149-160 | a struct reached through a named field is walked below that field's entry, and the entry is not listed itself; an embedded field is transparent, so its struct is walked below the field's parent |
| WalkerProperties.BuildHandles | reflect.go:123-163 | every entry's location leads, inside the updated value, to the value it describes: a time field as declared, otherwise a non-struct reached after pointer resolution |
| WalkerProperties.BuildResolves | reflect.go:132-142 | after a successful build, every pointer chain reachable through entered fields ends in a non-pointer or a nil pointer to a non-struct: no nil struct pointer is left |
| CatalogShape.BuildListsLeaves | reflect.go:114-164 | for structs nested to any depth, the catalog's locations are exactly the leaves of the updated value, in declaration order: unexported fields are skipped, time fields are leaves, pointers are followed, structs are entered, and anything else is one leaf |
| CatalogShape.CatalogInDeclarationOrder | reflect.go:114-164 | the entries' locations strictly increase in declaration order, so no location is listed twice |
| CatalogShape.EachLeafListedOnce | reflect.go:114-164 | every leaf of the updated value has exactly one entry, and every entry is at a leaf |
| CatalogShape.BadTagAnywhereAbortsBuild | reflect.go:124-158 | for a pointer to a struct, the build fails exactly when an exported field the walk visits, at any depth, including inside structs it creates, carries a malformed annotation, and the failure is then InvalidTagFormat |
| CatalogShape.BuildNamesEntries | reflect.go:149-160 | at any depth, the k-th entry's path is the k-th name path of the updated struct: the names of the non-embedded struct fields entered on the way to its leaf, then its own field name; embedded structs add no name |
| CatalogShape.DerivedKeysFollowNesting | reflect.go:60-86 | the k-th entry sits at the k-th leaf, and a bare `env` or `flag` on it yields that leaf's name path joined with `_` and upper-cased, or joined with `-` and lower-cased, so `Server.Host` gets `SERVER_HOST` |
| Coerce.SetFieldValue | reflect.go:261-326 | a parse failure writes nothing; a panic only arises for pointer fields; a write accompanies success, except for a time field, which is written and reported unsupported |
| Coerce.SetPtrValue | reflect.go:328-389 | a pointer field is only ever written with an address; failures and panics write nothing |
| Coerce.SetSliceValue | reflect.go:391-394 | a slice field is left alone and the call succeeds |
| Coerce.CoercionOutcomes | reflect.go:261-389 | types outside the table are rejected, slices succeed without a write, strings are written as is; otherwise a parse failure happens iff the kind's parser rejects the text, a panic iff it parses but the pointer the code stores is not assignable, a write iff it parses and is assignable, and success iff additionally the field is not a time field |
| Coerce.PointerFollowsTable | reflect.go:329-375 | a pointer to a scalar parses with the pointed-to kind's rule but never the duration rule, and stores a pointer to the parser's own type; Set panics when that is not assignable |
| Coerce.UnsupportedExactly | reflect.go:261-389 | "unsupported type" is reported exactly for types outside the table, and for time fields whose value parsed |
| Coerce.TimeWriteReportsUnsupported | reflect.go:313-321 | a parsed time value is written into a time or time-pointer field, and the call still reports an unsupported type |
| Coerce.PointerDurationSkipsDurationRule | reflect.go:342-355 | a `*time.Duration` field reads an integer rather than a duration, and Set panics on every integer |
| Coerce.NarrowPointerPanics | reflect.go:336-341 | `*int` and `*int32` fields receive an `*int64`, so Set panics on every valid literal |
| Coerce.SetValueIntended | reflect.go:261-389 | the intended coercion never panics, reports success whenever it writes, and reports "unsupported type" exactly outside the table |
| Coerce.IntendedTimeIsWritten | reflect.go:313-321 | under the intended coercion a `time.Time` or `*time.Time` field fails exactly when the timestamp does not parse, and otherwise holds the parsed time, directly or through a fresh pointer, with success |
| Coerce.IntendedPointerDurationReadsDuration | reflect.go:342-355 | under the intended coercion a `*time.Duration` field fails exactly when the duration parser rejects the text, and otherwise succeeds holding the address of the parsed duration |
| Coerce.IntendedPointerAgreesWithElement | reflect.go:328-389 | under the intended coercion a pointer to a scalar gets the same status as the code gives a field of the pointed-to type, and holds the address of what that field would be written |
| Coerce.IntendedAgreesOffQuirks | reflect.go:261-312 | the intended coercion equals the code's on every non-pointer type other than time.Time |
| Scenarios.ServiceCatalog | reflect.go:100-182 | a struct with fields `Host` (`env,flag`) and `Port` (`env=SERVICE_PORT,default=8080`) yields two root-level entries with those directive sets |
| Scenarios.ServiceKeys | reflect.go:68-93 | those entries have the keys `HOST` and `host` from the path, the explicit `SERVICE_PORT`, and the default `8080` |

## Left out

- Reflection itself is not modelled: `reflect.ValueOf`, `CanSet`, `Addr`,
  `Interface` and `Tag.Get`. A struct field's `exported` flag stands for
  `CanSet`, and its `tag` is the value of its `config` key.
- Self-referential struct types cannot be represented, since types are
  finite trees. This leaves out both outcomes of the library on them:
  - it loops on an exported, validly annotated `Next *T`, creating and
    entering every nil `*T`;
  - it terminates when the self-reference goes through an unexported field,
    a slice or a map, or through a field whose annotation is malformed
    (the walk fails after creating one pointer).
- Cyclic pointer values cannot be represented either, since values are
  finite trees. The library loops on a cycle of non-nil pointers reachable
  through exported fields.
- The literal parsers of the standard library are parameters (see above).
  Float values are opaque 64-bit patterns and no float arithmetic is
  modelled.
- The coercer's narrowing writes are not modelled. `SetInt` and `SetUint`
  into a narrower field truncate the value, and `SetFloat` into a `float32`
  field rounds the `ParseFloat(v, 64)` result (reflect.go:302-306). The
  model records the parsed integer, or the 64-bit float pattern, as
  written.
- The round trip of coercion (format a value, coerce the string, read the field back) is not stated. It depends on the standard library's parser and formatter pairs, which are parameters here.
- `strconv.IntSize` is fixed at 64, as on 64-bit platforms.
- `ToUpper` and `ToLower` are modelled on ASCII letters only; Go's Unicode
  case mapping is not modelled.
- Error messages are not modelled. Errors are classified by kind only, and
  parse errors are one class `ParseFailure`, which stands for whatever the
  parser returned.
- When the walk fails part-way, Go leaves the struct pointers created so far
  in the caller's struct. The model returns an error and no value.
- The one-line accessors (`Fields`, `StructField`, `Value`, `Parent`,
  `Name`) are omitted. They return stored data and carry no logic.
- Walker.Build: the success condition is stated in one direction only.
  Valid annotations on every exported field reachable through the *types*
  guarantee success. The converse fails, because a nil pointer to a
  non-struct is never entered. The exact condition is stated over the
  *value* instead, by CatalogShape.BadTagAnywhereAbortsBuild.

## Findings

| source | as written | input that shows it | evidently intended | confidence | as-written member | corrected member |
|---|---|---|---|---|---|---|
| reflect.go:313-321 | the time branch writes the parsed value and then falls through to the "unsupported type" error | a `time.Time` field and `"2020-01-02T03:04:05Z"` | return success after writing the parsed time | not executed | Coerce.TimeWriteReportsUnsupported | Coerce.IntendedTimeIsWritten |
| reflect.go:342-355 | the duration test compares the pointer type with `time.Duration`, which can never match | a `*time.Duration` field and `"1h"` (parse failure) or `"5"` (Set panics on `*int64`) | test the pointed-to type and store a `*time.Duration` | not executed | Coerce.PointerDurationSkipsDurationRule | Coerce.IntendedPointerDurationReadsDuration |
| reflect.go:336-341 | pointer-to-int fields receive a pointer to the parser's `int64` | a `*int` field and `"5"`: `*int64` is not assignable to `*int`, so Set panics | allocate the pointed-to type and convert into it | not executed | Coerce.NarrowPointerPanics | Coerce.IntendedPointerAgreesWithElement |

=== FILE: catalog_shape.dfy ===
/** The shape of the catalog for arbitrarily nested structs: its entries are
    exactly the leaves of the updated value, in declaration order, each
    once; and a malformed annotation anywhere the walk goes aborts it. */
module CatalogShape {
  import opened Errors
  import opened Strings
  import opened Tags
  import opened Types
  import opened Fields
  import opened Walker
  import opened WalkerProperties

  // ---------------------------------------------------------------------
  // Locations and name paths.

  /** Every location (or name path) of `locs`, placed below `p`. */
  function PrefixAll<T>(p: seq<T>, locs: seq<seq<T>>): (r: seq<seq<T>>)
    ensures |r| == |locs|
    ensures forall k :: 0 <= k < |locs| ==> r[k] == p + locs[k]
  {
    seq(|locs|, k requires 0 <= k < |locs| => p + locs[k])
  }

  /** The locations of the entries of a catalog, in catalog order. */
  function Locs(catalog: seq<FieldInfo>): (r: seq<Loc>)
    ensures |r| == |catalog|
    ensures forall k :: 0 <= k < |catalog| ==> r[k] == catalog[k].loc
  {
    seq(|catalog|, k requires 0 <= k < |catalog| => catalog[k].loc)
  }

  lemma LocsAppend(a: seq<FieldInfo>, b: seq<FieldInfo>)
    ensures Locs(a + b) == Locs(a) + Locs(b)
  {
    assert forall k :: 0 <= k < |a + b| ==> Locs(a + b)[k] == (Locs(a) + Locs(b))[k];
  }

  lemma PrefixAllAppend<T>(p: seq<T>, a: seq<seq<T>>, b: seq<seq<T>>)
    ensures PrefixAll(p, a + b) == PrefixAll(p, a) + PrefixAll(p, b)
  {
    assert forall k :: 0 <= k < |a + b| ==> PrefixAll(p, a + b)[k] == (PrefixAll(p, a) + PrefixAll(p, b))[k];
  }

  lemma PrefixAllCompose<T>(p: seq<T>, q: seq<T>, locs: seq<seq<T>>)
    ensures PrefixAll(p, PrefixAll(q, locs)) == PrefixAll(p + q, locs)
  {
    forall k | 0 <= k < |locs| ensures PrefixAll(p, PrefixAll(q, locs))[k] == PrefixAll(p + q, locs)[k] {
      assert p + (q + locs[k]) == (p + q) + locs[k];
    }
  }

  // ---------------------------------------------------------------------
  // The leaves of a value, independently of the walk.

  /** The leaf locations of a struct value: those of its fields, in
      declaration order. */
  function StructLeaves(sv: Value): seq<Loc>
    requires sv.Record? && WellTyped(sv)
    decreases Depth(sv.t), 2
  {
    FieldLeaves(sv.t, sv.fields, 0)
  }

  /** The leaf locations of fields `i..` of struct type `t`, each below its
      field step. */
  function FieldLeaves(t: Type, fs: seq<Value>, i: nat): seq<Loc>
    requires FieldsFit(t, fs, i)
    decreases Depth(t), 1, |fs|
  {
    if |fs| == 0 then []
    else PrefixAll([Field(i)], OneField(FieldsOf(t)[i], fs[0])) + FieldLeaves(t, fs[1..], i + 1)
  }

  /** The leaves of one field, relative to the field: none when unexported,
      the field itself when it is a time field, else the leaves below it. */
  function OneField(f: StructField, v: Value): seq<Loc>
    requires WellTyped(v) && v.t == f.typ
    decreases Depth(v.t), 5
  {
    if !f.exported then []
    else if IsTimeType(f.typ) then [[]]
    else Below(v)
  }

  /** The leaves below a value: through pointers, into structs; any other
      value (nil pointer, scalar) is itself a leaf. */
  function Below(v: Value): seq<Loc>
    requires WellTyped(v)
    decreases Depth(v.t), 4
  {
    match v
    case Ref(_, x) => PrefixAll([Deref], Below(x))
    case Record(_, _) => StructLeaves(v)
    case _ => [[]]
  }

  // ---------------------------------------------------------------------
  // The catalog lists exactly the leaves of the updated value.

  lemma ExtendsKeepsType(before: Value, after: Value)
    requires WellTyped(before) && Extends(before, after)
    ensures after.t == before.t
    ensures before.Record? ==> after.Record?
  {
  }

  /** After a successful build, the locations of the entries are the leaf
      locations of the updated value, in order: every leaf reachable through
      exported fields has exactly one entry, and nothing else has one. */
  lemma {:induction false} BuildListsLeaves(root: Value)
    requires WellTyped(root) && Build(root).Ok?
    ensures Locs(Build(root).value.catalog) == Below(Build(root).value.tree)
  {
    var w := WalkStruct(root.target, [Deref], None).value;
    ExtendsKeepsType(root.target, w.tree);
    WalkStructLeaves(root.target, [Deref], None);
  }

  lemma {:induction false} WalkStructLeaves(sv: Value, at: Loc, parent: Option<FieldInfo>)
    requires sv.Record? && WellTyped(sv) && WalkStruct(sv, at, parent).Ok?
    ensures WalkStruct(sv, at, parent).value.tree.Record?
    ensures Locs(WalkStruct(sv, at, parent).value.catalog) == PrefixAll(at, StructLeaves(WalkStruct(sv, at, parent).value.tree))
    decreases Depth(sv.t), 2
  {
    WalkFromLeaves(sv.t, sv.fields, 0, at, parent);
  }

  lemma {:induction false} WalkFromLeaves(t: Type, fs: seq<Value>, i: nat, at: Loc, parent: Option<FieldInfo>)
    requires FieldsFit(t, fs, i) && WalkFrom(t, fs, i, at, parent).Ok?
    ensures Locs(WalkFrom(t, fs, i, at, parent).value.catalog)
         == PrefixAll(at, FieldLeaves(t, WalkFrom(t, fs, i, at, parent).value.trees, i))
    decreases Depth(t), 1, |fs|, 1
  {
    if |fs| == 0 {
      WalkFromEmpty(t, fs, i, at, parent);
    } else {
      var w, rest := WalkFromStep(t, fs, i, at, parent);
      WalkFromLeavesCons(t, fs, i, at, parent, w, rest);
    }
  }

  lemma {:induction false} WalkFromLeavesCons(t: Type, fs: seq<Value>, i: nat, at: Loc, parent: Option<FieldInfo>, w: Walked, rest: WalkedFields)
    requires FieldsFit(t, fs, i) && |fs| > 0
    requires WalkField(FieldsOf(t)[i], fs[0], at + [Field(i)], parent) == Ok(w)
    requires WalkFrom(t, fs[1..], i + 1, at, parent) == Ok(rest)
    ensures FieldsFit(t, [w.tree] + rest.trees, i)
    ensures Locs(w.catalog + rest.catalog) == PrefixAll(at, FieldLeaves(t, [w.tree] + rest.trees, i))
    decreases Depth(t), 1, |fs|, 0
  {
    FieldsFitTail(t, fs, i);
    var f := FieldsOf(t)[i];
    ExtendsKeepsType(fs[0], w.tree);
    WalkFieldLeaves(f, fs[0], at + [Field(i)], parent);
    WalkFromLeaves(t, fs[1..], i + 1, at, parent);
    var trees := [w.tree] + rest.trees;
    JoinFields(t, fs, i, w, rest, parent);
    assert trees[0] == w.tree && trees[1..] == rest.trees;
    var mine := OneField(f, w.tree);
    var others := FieldLeaves(t, rest.trees, i + 1);
    assert FieldLeaves(t, trees, i) == PrefixAll([Field(i)], mine) + others;
    LocsAppend(w.catalog, rest.catalog);
    PrefixAllCompose(at, [Field(i)], mine);
    PrefixAllAppend(at, PrefixAll([Field(i)], mine), others);
  }

  lemma {:induction false} WalkFieldLeaves(f: StructField, fv: Value, at: Loc, parent: Option<FieldInfo>)
    requires WellTyped(fv) && fv.t == f.typ && WalkField(f, fv, at, parent).Ok?
    ensures WalkField(f, fv, at, parent).value.tree.t == f.typ
    ensures Locs(WalkField(f, fv, at, parent).value.catalog)
         == PrefixAll(at, OneField(f, WalkField(f, fv, at, parent).value.tree))
    decreases Depth(fv.t), 5
  {
    var w := WalkField(f, fv, at, parent).value;
    ExtendsKeepsType(fv, w.tree);
    if f.exported {
      if IsTimeType(f.typ) {
        assert w.catalog == [NewFieldInfo(f, at, parent).value];
        assert at + [] == at;
        assert Locs(w.catalog) == [at] == PrefixAll(at, [[]]);
      } else {
        DescendLeaves(f, fv, at, parent);
      }
    }
  }

  lemma {:induction false} DescendLeaves(f: StructField, fv: Value, at: Loc, parent: Option<FieldInfo>)
    requires f.exported && !IsTimeType(f.typ) && WellTyped(fv) && Descend(f, fv, at, parent).Ok?
    ensures Locs(Descend(f, fv, at, parent).value.catalog) == PrefixAll(at, Below(Descend(f, fv, at, parent).value.tree))
    decreases Depth(fv.t), 4
  {
    match fv
    case Ref(t, x) =>
      DescendLeaves(f, x, at + [Deref], parent);
      var w := Descend(f, x, at + [Deref], parent).value;
      PrefixAllCompose(at, [Deref], Below(w.tree));
    case Nil(t) =>
      if KindOf(Elem(t)) == Struct {
        var z := Zero(Elem(t));
        SettleLeaves(f, z, at + [Deref], parent);
        var w := Settle(f, z, at + [Deref], parent).value;
        PrefixAllCompose(at, [Deref], Below(w.tree));
      } else {
        SettleLeaves(f, fv, at, parent);
      }
    case _ =>
      SettleLeaves(f, fv, at, parent);
  }

  lemma {:induction false} SettleLeaves(f: StructField, fv: Value, at: Loc, parent: Option<FieldInfo>)
    requires f.exported && !IsTimeType(f.typ) && WellTyped(fv) && !fv.Ref?
    requires Settle(f, fv, at, parent).Ok?
    ensures Locs(Settle(f, fv, at, parent).value.catalog) == PrefixAll(at, Below(Settle(f, fv, at, parent).value.tree))
    decreases Depth(fv.t), 3
  {
    var fi := NewFieldInfo(f, at, parent).value;
    if fv.Record? {
      WalkStructLeaves(fv, at, if f.anonymous then parent else Some(fi));
    } else {
      var w := Settle(f, fv, at, parent).value;
      assert w == Walked([fi], fv);
      assert at + [] == at;
      assert Locs(w.catalog) == [at] == PrefixAll(at, [[]]);
    }
  }

  // ---------------------------------------------------------------------
  // The leaves are in declaration order, so the entries are distinct.

  /** `a` comes before `b` in declaration order: at the first step where
      they differ, both select a field, and `a`'s field is declared first. */
  predicate Before(a: Loc, b: Loc)
    decreases |a|
  {
    && |a| > 0 && |b| > 0
    && if a[0] == b[0] then Before(a[1..], b[1..])
       else a[0].Field? && b[0].Field? && a[0].index < b[0].index
  }

  /** Every location comes before every later one. */
  predicate Ordered(locs: seq<Loc>) {
    forall j, k :: 0 <= j < k < |locs| ==> Before(locs[j], locs[k])
  }

  lemma {:induction false} BeforeIrreflexive(a: Loc)
    ensures !Before(a, a)
    decreases |a|
  {
    if |a| > 0 {
      BeforeIrreflexive(a[1..]);
    }
  }

  lemma {:induction false} BeforeUnderPrefix(p: Loc, a: Loc, b: Loc)
    requires Before(a, b)
    ensures Before(p + a, p + b)
    decreases |p|
  {
    if |p| > 0 {
      BeforeUnderPrefix(p[1..], a, b);
      assert (p + a)[1..] == p[1..] + a && (p + b)[1..] == p[1..] + b;
    } else {
      assert p + a == a && p + b == b;
    }
  }

  lemma OrderedUnderPrefix(p: Loc, locs: seq<Loc>)
    requires Ordered(locs)
    ensures Ordered(PrefixAll(p, locs))
  {
    forall j, k | 0 <= j < k < |locs| ensures Before(PrefixAll(p, locs)[j], PrefixAll(p, locs)[k]) {
      BeforeUnderPrefix(p, locs[j], locs[k]);
    }
  }

  /** Every location starts with the step of a field declared at `i` or later. */
  predicate HeadsFrom(locs: seq<Loc>, i: nat) {
    forall k :: 0 <= k < |locs| ==> |locs[k]| > 0 && locs[k][0].Field? && locs[k][0].index >= i
  }

  /** Every leaf of fields `i..` starts with the step of a field `>= i`. */
  lemma {:induction false} FieldLeavesHeads(t: Type, fs: seq<Value>, i: nat)
    requires FieldsFit(t, fs, i)
    ensures HeadsFrom(FieldLeaves(t, fs, i), i)
    decreases |fs|
  {
    if |fs| > 0 {
      FieldsFitTail(t, fs, i);
      FieldLeavesHeads(t, fs[1..], i + 1);
      var mine := PrefixAll([Field(i)], OneField(FieldsOf(t)[i], fs[0]));
      var others := FieldLeaves(t, fs[1..], i + 1);
      var all: seq<Loc> := FieldLeaves(t, fs, i);
      assert all == mine + others;
      forall k | 0 <= k < |all| ensures |all[k]| > 0 && all[k][0].Field? && all[k][0].index >= i {
        if k < |mine| {
          assert all[k] == [Field(i)] + OneField(FieldsOf(t)[i], fs[0])[k];
        } else {
          assert all[k] == others[k - |mine|];
        }
      }
    }
  }

  lemma {:induction false} StructLeavesOrdered(sv: Value)
    requires sv.Record? && WellTyped(sv)
    ensures Ordered(StructLeaves(sv))
    decreases Depth(sv.t), 2
  {
    FieldLeavesOrdered(sv.t, sv.fields, 0);
  }

  lemma {:induction false} FieldLeavesOrdered(t: Type, fs: seq<Value>, i: nat)
    requires FieldsFit(t, fs, i)
    ensures Ordered(FieldLeaves(t, fs, i))
    decreases Depth(t), 1, |fs|
  {
    if |fs| > 0 {
      FieldsFitTail(t, fs, i);
      var f := FieldsOf(t)[i];
      OneFieldOrdered(f, fs[0]);
      FieldLeavesOrdered(t, fs[1..], i + 1);
      FieldLeavesHeads(t, fs[1..], i + 1);
      var mine := PrefixAll([Field(i)], OneField(f, fs[0]));
      var others := FieldLeaves(t, fs[1..], i + 1);
      OrderedUnderPrefix([Field(i)], OneField(f, fs[0]));
      OrderedJoin(mine, others, i);
    }
  }

  /** Locations below field `i`, then locations below later fields. */
  lemma OrderedJoin(mine: seq<Loc>, others: seq<Loc>, i: nat)
    requires Ordered(mine) && Ordered(others)
    requires forall k :: 0 <= k < |mine| ==> |mine[k]| > 0 && mine[k][0] == Field(i)
    requires HeadsFrom(others, i + 1)
    ensures Ordered(mine + others)
  {
    var all: seq<Loc> := mine + others;
    forall j, k | 0 <= j < k < |all| ensures Before(all[j], all[k]) {
      if k >= |mine| && j < |mine| {
        assert all[j] == mine[j] && all[k] == others[k - |mine|];
      } else if j >= |mine| {
        assert all[j] == others[j - |mine|] && all[k] == others[k - |mine|];
      } else {
        assert all[j] == mine[j] && all[k] == mine[k];
      }
    }
  }

  lemma {:induction false} OneFieldOrdered(f: StructField, v: Value)
    requires WellTyped(v) && v.t == f.typ
    ensures Ordered(OneField(f, v))
    decreases Depth(v.t), 5
  {
    if f.exported && !IsTimeType(f.typ) {
      BelowOrdered(v);
    }
  }

  lemma {:induction false} BelowOrdered(v: Value)
    requires WellTyped(v)
    ensures Ordered(Below(v))
    decreases Depth(v.t), 4
  {
    match v
    case Ref(_, x) =>
      BelowOrdered(x);
      OrderedUnderPrefix([Deref], Below(x));
    case Record(_, _) =>
      StructLeavesOrdered(v);
    case _ =>
  }

  /** The catalog is in declaration order and lists each location once. */
  lemma CatalogInDeclarationOrder(root: Value)
    requires WellTyped(root) && Build(root).Ok?
    ensures var c := Build(root).value.catalog;
      forall j, k :: 0 <= j < k < |c| ==> Before(c[j].loc, c[k].loc) && c[j].loc != c[k].loc
  {
    var w := Build(root).value;
    BuildListsLeaves(root);
    BelowOrdered(w.tree);
    forall j, k | 0 <= j < k < |w.catalog| ensures Before(w.catalog[j].loc, w.catalog[k].loc) && w.catalog[j].loc != w.catalog[k].loc {
      assert Locs(w.catalog)[j] == w.catalog[j].loc && Locs(w.catalog)[k] == w.catalog[k].loc;
      if w.catalog[j].loc == w.catalog[k].loc {
        BeforeIrreflexive(w.catalog[j].loc);
      }
    }
  }

  /** Every leaf of the updated value has exactly one entry, and every entry
      is at a leaf. */
  lemma EachLeafListedOnce(root: Value)
    requires WellTyped(root) && Build(root).Ok?
    ensures var w := Build(root).value;
      forall x: Loc :: x in Below(w.tree) <==> exists k :: 0 <= k < |w.catalog| && w.catalog[k].loc == x
    ensures var c := Build(root).value.catalog;
      forall j, k :: 0 <= j < |c| && 0 <= k < |c| && c[j].loc == c[k].loc ==> j == k
  {
    var w := Build(root).value;
    BuildListsLeaves(root);
    CatalogInDeclarationOrder(root);
    forall x: Loc ensures x in Below(w.tree) <==> exists k :: 0 <= k < |w.catalog| && w.catalog[k].loc == x {
      if x in Below(w.tree) {
        var k :| 0 <= k < |Locs(w.catalog)| && Locs(w.catalog)[k] == x;
        assert w.catalog[k].loc == x;
      }
      if exists k :: 0 <= k < |w.catalog| && w.catalog[k].loc == x {
        var k :| 0 <= k < |w.catalog| && w.catalog[k].loc == x;
        assert Locs(w.catalog)[k] == x;
      }
    }
  }

  // ---------------------------------------------------------------------
  // Each entry's path names the fields entered on the way to it.

  /** The name paths of the leaves of a struct value, parallel to
      `StructLeaves`: for each leaf, the names of the non-embedded struct
      fields entered on the way to it, then the name of the leaf's field. */
  function StructNames(sv: Value): seq<seq<string>>
    requires sv.Record? && WellTyped(sv)
    decreases Depth(sv.t), 2
  {
    FieldNames(sv.t, sv.fields, 0)
  }

  function FieldNames(t: Type, fs: seq<Value>, i: nat): seq<seq<string>>
    requires FieldsFit(t, fs, i)
    decreases Depth(t), 1, |fs|
  {
    if |fs| == 0 then []
    else OneFieldNames(FieldsOf(t)[i], fs[0]) + FieldNames(t, fs[1..], i + 1)
  }

  function OneFieldNames(f: StructField, v: Value): seq<seq<string>>
    requires WellTyped(v) && v.t == f.typ
    decreases Depth(v.t), 5
  {
    if !f.exported then []
    else if IsTimeType(f.typ) then [[f.name]]
    else NamesBelow(f, v)
  }

  /** The name paths below field `f` holding `v`: a struct is entered, under
      `f`'s name unless `f` is embedded; anything else is `f` itself. */
  function NamesBelow(f: StructField, v: Value): seq<seq<string>>
    requires WellTyped(v)
    decreases Depth(v.t), 4
  {
    match v
    case Ref(_, x) => NamesBelow(f, x)
    case Record(_, _) => if f.anonymous then StructNames(v) else PrefixAll([f.name], StructNames(v))
    case _ => [[f.name]]
  }

  /** The paths of the entries of a catalog, in catalog order. */
  function Paths(catalog: seq<FieldInfo>): (r: seq<seq<string>>)
    ensures |r| == |catalog|
    ensures forall k :: 0 <= k < |catalog| ==> r[k] == Path(catalog[k])
  {
    seq(|catalog|, k requires 0 <= k < |catalog| => Path(catalog[k]))
  }

  lemma PathsAppend(a: seq<FieldInfo>, b: seq<FieldInfo>)
    ensures Paths(a + b) == Paths(a) + Paths(b)
  {
    assert forall k :: 0 <= k < |a + b| ==> Paths(a + b)[k] == (Paths(a) + Paths(b))[k];
  }

  /** A fresh entry of field `f` below `parent` is one path: the parent's,
      extended by `f`'s name. */
  lemma SingleEntryPath(f: StructField, at: Loc, parent: Option<FieldInfo>)
    requires ParseTag(f.tag).Ok?
    ensures Paths([NewFieldInfo(f, at, parent).value]) == PrefixAll(Ancestry(parent), [[f.name]])
  {
    var fi := NewFieldInfo(f, at, parent).value;
    assert Path(fi) == Ancestry(parent) + [f.name];
  }

  /** After a successful build, the k-th entry's path, from which its derived
      keys are built, is the k-th name path of the updated struct: the names
      of the non-embedded struct fields entered on the way to the k-th leaf,
      then the leaf field's own name. */
  lemma {:induction false} BuildNamesEntries(root: Value)
    requires WellTyped(root) && Build(root).Ok?
    ensures Build(root).value.tree.Ref? && Build(root).value.tree.target.Record?
    ensures Paths(Build(root).value.catalog) == StructNames(Build(root).value.tree.target)
  {
    var w := WalkStruct(root.target, [Deref], None).value;
    WalkStructNames(root.target, [Deref], None);
    var names := StructNames(w.tree);
    forall k | 0 <= k < |names| ensures PrefixAll([], names)[k] == names[k] {
      assert [] + names[k] == names[k];
    }
  }

  /** So a bare `env` or `flag` directive at any depth yields the key spelled
      from the entry's nesting: `Server.Host` becomes `SERVER_HOST`. */
  lemma DerivedKeysFollowNesting(root: Value)
    requires WellTyped(root) && Build(root).Ok?
    ensures Build(root).value.tree.Ref? && Build(root).value.tree.target.Record?
    ensures var c := Build(root).value.catalog;
      var names := StructNames(Build(root).value.tree.target);
      && |names| == |c|
      && Locs(c) == Below(Build(root).value.tree)
      && (forall k :: 0 <= k < |c| && c[k].tag.hasENV && c[k].tag.env == "" ==>
            ENVKey(c[k]) == Upper(Join(names[k], EnvSeparator)))
      && (forall k :: 0 <= k < |c| && c[k].tag.hasFlag && c[k].tag.flag == "" ==>
            FlagKey(c[k]) == Lower(Join(names[k], FlagSeparator)))
  {
    BuildNamesEntries(root);
    BuildListsLeaves(root);
  }

  lemma {:induction false} WalkStructNames(sv: Value, at: Loc, parent: Option<FieldInfo>)
    requires sv.Record? && WellTyped(sv) && WalkStruct(sv, at, parent).Ok?
    ensures WalkStruct(sv, at, parent).value.tree.Record?
    ensures Paths(WalkStruct(sv, at, parent).value.catalog)
         == PrefixAll(Ancestry(parent), StructNames(WalkStruct(sv, at, parent).value.tree))
    decreases Depth(sv.t), 2
  {
    WalkFromNames(sv.t, sv.fields, 0, at, parent);
  }

  lemma {:induction false} WalkFromNames(t: Type, fs: seq<Value>, i: nat, at: Loc, parent: Option<FieldInfo>)
    requires FieldsFit(t, fs, i) && WalkFrom(t, fs, i, at, parent).Ok?
    ensures Paths(WalkFrom(t, fs, i, at, parent).value.catalog)
         == PrefixAll(Ancestry(parent), FieldNames(t, WalkFrom(t, fs, i, at, parent).value.trees, i))
    decreases Depth(t), 1, |fs|, 1
  {
    if |fs| == 0 {
      WalkFromEmpty(t, fs, i, at, parent);
    } else {
      var w, rest := WalkFromStep(t, fs, i, at, parent);
      WalkFromNamesCons(t, fs, i, at, parent, w, rest);
    }
  }

  lemma {:induction false} WalkFromNamesCons(t: Type, fs: seq<Value>, i: nat, at: Loc, parent: Option<FieldInfo>, w: Walked, rest: WalkedFields)
    requires FieldsFit(t, fs, i) && |fs| > 0
    requires WalkField(FieldsOf(t)[i], fs[0], at + [Field(i)], parent) == Ok(w)
    requires WalkFrom(t, fs[1..], i + 1, at, parent) == Ok(rest)
    ensures FieldsFit(t, [w.tree] + rest.trees, i)
    ensures Paths(w.catalog + rest.catalog) == PrefixAll(Ancestry(parent), FieldNames(t, [w.tree] + rest.trees, i))
    decreases Depth(t), 1, |fs|, 0
  {
    FieldsFitTail(t, fs, i);
    var f := FieldsOf(t)[i];
    ExtendsKeepsType(fs[0], w.tree);
    WalkFieldNames(f, fs[0], at + [Field(i)], parent);
    WalkFromNames(t, fs[1..], i + 1, at, parent);
    var trees := [w.tree] + rest.trees;
    JoinFields(t, fs, i, w, rest, parent);
    assert trees[0] == w.tree && trees[1..] == rest.trees;
    var mine := OneFieldNames(f, w.tree);
    var others := FieldNames(t, rest.trees, i + 1);
    assert FieldNames(t, trees, i) == mine + others;
    PathsAppend(w.catalog, rest.catalog);
    PrefixAllAppend(Ancestry(parent), mine, others);
  }

  lemma {:induction false} WalkFieldNames(f: StructField, fv: Value, at: Loc, parent: Option<FieldInfo>)
    requires WellTyped(fv) && fv.t == f.typ && WalkField(f, fv, at, parent).Ok?
    ensures WalkField(f, fv, at, parent).value.tree.t == f.typ
    ensures Paths(WalkField(f, fv, at, parent).value.catalog)
         == PrefixAll(Ancestry(parent), OneFieldNames(f, WalkField(f, fv, at, parent).value.tree))
    decreases Depth(fv.t), 5
  {
    var w := WalkField(f, fv, at, parent).value;
    ExtendsKeepsType(fv, w.tree);
    if f.exported {
      if IsTimeType(f.typ) {
        assert w.catalog == [NewFieldInfo(f, at, parent).value];
        SingleEntryPath(f, at, parent);
      } else {
        DescendNames(f, fv, at, parent);
      }
    }
  }

  lemma {:induction false} DescendNames(f: StructField, fv: Value, at: Loc, parent: Option<FieldInfo>)
    requires f.exported && !IsTimeType(f.typ) && WellTyped(fv) && Descend(f, fv, at, parent).Ok?
    ensures Paths(Descend(f, fv, at, parent).value.catalog)
         == PrefixAll(Ancestry(parent), NamesBelow(f, Descend(f, fv, at, parent).value.tree))
    decreases Depth(fv.t), 4
  {
    match fv
    case Ref(t, x) =>
      DescendNames(f, x, at + [Deref], parent);
    case Nil(t) =>
      if KindOf(Elem(t)) == Struct {
        SettleNames(f, Zero(Elem(t)), at + [Deref], parent);
      } else {
        SettleNames(f, fv, at, parent);
      }
    case _ =>
      SettleNames(f, fv, at, parent);
  }

  lemma {:induction false} SettleNames(f: StructField, fv: Value, at: Loc, parent: Option<FieldInfo>)
    requires f.exported && !IsTimeType(f.typ) && WellTyped(fv) && !fv.Ref?
    requires Settle(f, fv, at, parent).Ok?
    ensures Paths(Settle(f, fv, at, parent).value.catalog)
         == PrefixAll(Ancestry(parent), NamesBelow(f, Settle(f, fv, at, parent).value.tree))
    decreases Depth(fv.t), 3
  {
    var fi := NewFieldInfo(f, at, parent).value;
    if fv.Record? {
      if f.anonymous {
        WalkStructNames(fv, at, parent);
      } else {
        WalkStructNames(fv, at, Some(fi));
        var w := WalkStruct(fv, at, Some(fi)).value;
        assert Ancestry(Some(fi)) == Ancestry(parent) + [f.name];
        PrefixAllCompose(Ancestry(parent), [f.name], StructNames(w.tree));
      }
    } else {
      assert Settle(f, fv, at, parent).value == Walked([fi], fv);
      SingleEntryPath(f, at, parent);
    }
  }

  // ---------------------------------------------------------------------
  // A malformed annotation anywhere the walk goes aborts the build.

  /** Some field the walk visits, in the struct or below it, is exported and
      carries a malformed annotation. Fields of structs the walk would create
      count too: the walk visits the zero value it creates. */
  predicate BadInStruct(sv: Value)
    requires sv.Record? && WellTyped(sv)
    decreases Depth(sv.t), 2
  {
    BadInFields(sv.t, sv.fields, 0)
  }

  predicate BadInFields(t: Type, fs: seq<Value>, i: nat)
    requires FieldsFit(t, fs, i)
    decreases Depth(t), 1, |fs|
  {
    |fs| > 0 && (BadField(FieldsOf(t)[i], fs[0]) || BadInFields(t, fs[1..], i + 1))
  }

  predicate BadField(f: StructField, v: Value)
    requires WellTyped(v) && v.t == f.typ
    decreases Depth(v.t), 5
  {
    f.exported && (ParseTag(f.tag).Err? || (!IsTimeType(f.typ) && BadBelow(v)))
  }

  predicate BadBelow(v: Value)
    requires WellTyped(v)
    decreases Depth(v.t), 4
  {
    match v
    case Ref(_, x) => BadBelow(x)
    case Nil(t) => KindOf(Elem(t)) == Struct && BadInStruct(Zero(Elem(t)))
    case Record(_, _) => BadInStruct(v)
    case Plain(_) => false
  }

  /** For a pointer to a struct, the build fails exactly when an exported
      field the walk visits, at any depth, including inside structs it
      creates, carries a malformed annotation; the failure is then
      InvalidTagFormat with no catalog. */
  lemma BadTagAnywhereAbortsBuild(root: Value)
    requires WellTyped(root) && root.Ref? && root.target.Record?
    ensures Build(root) == Err(InvalidTagFormat) <==> BadInStruct(root.target)
    ensures Build(root).Ok? <==> !BadInStruct(root.target)
  {
    if BadInStruct(root.target) {
      WalkStructFails(root.target, [Deref], None);
    } else {
      WalkStructSucceeds(root.target, [Deref], None);
    }
  }

  lemma {:induction false} WalkStructFails(sv: Value, at: Loc, parent: Option<FieldInfo>)
    requires sv.Record? && WellTyped(sv) && BadInStruct(sv)
    ensures WalkStruct(sv, at, parent).Err?
    decreases Depth(sv.t), 2
  {
    WalkFromBad(sv.t, sv.fields, 0, at, parent);
  }

  lemma {:induction false} WalkFromBad(t: Type, fs: seq<Value>, i: nat, at: Loc, parent: Option<FieldInfo>)
    requires FieldsFit(t, fs, i) && BadInFields(t, fs, i)
    ensures WalkFrom(t, fs, i, at, parent).Err?
    decreases Depth(t), 1, |fs|
  {
    FieldsFitTail(t, fs, i);
    var f := FieldsOf(t)[i];
    if BadField(f, fs[0]) {
      WalkFieldFails(f, fs[0], at + [Field(i)], parent);
    } else {
      WalkFromBad(t, fs[1..], i + 1, at, parent);
    }
  }

  lemma {:induction false} WalkFieldFails(f: StructField, fv: Value, at: Loc, parent: Option<FieldInfo>)
    requires WellTyped(fv) && fv.t == f.typ && BadField(f, fv)
    ensures WalkField(f, fv, at, parent).Err?
    decreases Depth(fv.t), 5
  {
    if ParseTag(f.tag).Ok? {
      DescendFails(f, fv, at, parent);
    }
  }

  lemma {:induction false} DescendFails(f: StructField, fv: Value, at: Loc, parent: Option<FieldInfo>)
    requires f.exported && !IsTimeType(f.typ) && WellTyped(fv) && BadBelow(fv)
    ensures Descend(f, fv, at, parent).Err?
    decreases Depth(fv.t), 4
  {
    match fv
    case Ref(t, x) =>
      DescendFails(f, x, at + [Deref], parent);
    case Nil(t) =>
      SettleFails(f, Zero(Elem(t)), at + [Deref], parent);
    case Record(_, _) =>
      SettleFails(f, fv, at, parent);
  }

  lemma {:induction false} SettleFails(f: StructField, fv: Value, at: Loc, parent: Option<FieldInfo>)
    requires f.exported && !IsTimeType(f.typ) && WellTyped(fv) && fv.Record? && BadInStruct(fv)
    ensures Settle(f, fv, at, parent).Err?
    decreases Depth(fv.t), 3
  {
    if ParseTag(f.tag).Ok? {
      var fi := NewFieldInfo(f, at, parent).value;
      WalkStructFails(fv, at, if f.anonymous then parent else Some(fi));
    }
  }

  lemma {:induction false} WalkStructSucceeds(sv: Value, at: Loc, parent: Option<FieldInfo>)
    requires sv.Record? && WellTyped(sv) && !BadInStruct(sv)
    ensures WalkStruct(sv, at, parent).Ok?
    decreases Depth(sv.t), 2
  {
    WalkFromSucceeds(sv.t, sv.fields, 0, at, parent);
  }

  lemma {:induction false} WalkFromSucceeds(t: Type, fs: seq<Value>, i: nat, at: Loc, parent: Option<FieldInfo>)
    requires FieldsFit(t, fs, i) && !BadInFields(t, fs, i)
    ensures WalkFrom(t, fs, i, at, parent).Ok?
    decreases Depth(t), 1, |fs|
  {
    if |fs| > 0 {
      FieldsFitTail(t, fs, i);
      var f := FieldsOf(t)[i];
      WalkFieldSucceeds(f, fs[0], at + [Field(i)], parent);
      WalkFromSucceeds(t, fs[1..], i + 1, at, parent);
    }
  }

  lemma {:induction false} WalkFieldSucceeds(f: StructField, fv: Value, at: Loc, parent: Option<FieldInfo>)
    requires WellTyped(fv) && fv.t == f.typ && !BadField(f, fv)
    ensures WalkField(f, fv, at, parent).Ok?
    decreases Depth(fv.t), 5
  {
    if f.exported && !IsTimeType(f.typ) {
      DescendSucceeds(f, fv, at, parent);
    }
  }

  lemma {:induction false} DescendSucceeds(f: StructField, fv: Value, at: Loc, parent: Option<FieldInfo>)
    requires f.exported && !IsTimeType(f.typ) && WellTyped(fv) && ParseTag(f.tag).Ok? && !BadBelow(fv)
    ensures Descend(f, fv, at, parent).Ok?
    decreases Depth(fv.t), 4
  {
    match fv
    case Ref(t, x) =>
      DescendSucceeds(f, x, at + [Deref], parent);
    case Nil(t) =>
      if KindOf(Elem(t)) == Struct {
        SettleSucceeds(f, Zero(Elem(t)), at + [Deref], parent);
      } else {
        SettleSucceeds(f, fv, at, parent);
      }
    case _ =>
      SettleSucceeds(f, fv, at, parent);
  }

  lemma {:induction false} SettleSucceeds(f: StructField, fv: Value, at: Loc, parent: Option<FieldInfo>)
    requires f.exported && !IsTimeType(f.typ) && WellTyped(fv) && !fv.Ref? && ParseTag(f.tag).Ok?
    requires fv.Record? ==> !BadInStruct(fv)
    ensures Settle(f, fv, at, parent).Ok?
    decreases Depth(fv.t), 3
  {
    if fv.Record? {
      var fi := NewFieldInfo(f, at, parent).value;
      WalkStructSucceeds(fv, at, if f.anonymous then parent else Some(fi));
    }
  }
}

=== FILE: coerce.dfy ===
/** Coercion of a raw string into a field (reflect.go, setFieldValue,
    setPtrValue, setSliceValue), as a total function of the field's declared
    type. The literal parsers of Go's standard library (strconv, time) are
    not modelled: they are parameters, so every property below holds for
    whatever they accept. */
module Coerce {
  import opened Errors
  import opened Types

  /** strconv.IntSize on the 64-bit platforms the model assumes. */
  const IntSize: nat := 64

  /** A float64 as its bits; float arithmetic is not modelled. */
  datatype Float = Float(bits: bv64)

  /** A point in time as time.Parse returns it. */
  datatype Instant = Instant(unixSeconds: int, nanos: nat, zoneOffset: int)

  /** The literal parsers: strconv.ParseBool, ParseInt(s, 0, bits),
      ParseUint(s, 0, bits), ParseFloat(s, 64), time.ParseDuration and
      time.Parse(time.RFC3339, s). `None` is a parse error. */
  datatype Literals = Literals(
    parseBool: string -> Option<bool>,
    parseInt: (string, nat) -> Option<int>,
    parseUint: (string, nat) -> Option<nat>,
    parseFloat: string -> Option<Float>,
    parseDuration: string -> Option<int>,
    parseTime: string -> Option<Instant>)

  /** What a coercion writes into the field. `Address(p, x)` is a freshly
      allocated variable holding `x`, reached through a pointer of type `p`. */
  datatype Stored =
    | BoolVal(b: bool)
    | IntVal(i: int)
    | UintVal(u: nat)
    | FloatVal(f: Float)
    | StringVal(s: string)
    | TimeVal(t: Instant)
    | Address(ptrType: Type, target: Stored)

  /** The returned error, or a panic inside reflect.Value.Set (the pointer
      stored is not assignable to the field). */
  datatype Status = Success | Failure(kind: ErrorKind) | Panic

  /** The write performed (if any) and the status returned. */
  datatype Outcome = Outcome(write: Option<Stored>, status: Status)

  const Rejected := Outcome(None, Failure(Unsupported))
  const Unparsed := Outcome(None, Failure(ParseFailure))

  /** Write the parsed literal, or return the parser's error and write nothing. */
  function Parsed<T>(p: Option<T>, wrap: T -> Stored): Outcome {
    match p
    case None => Unparsed
    case Some(x) => Outcome(Some(wrap(x)), Success)
  }

  /** The base type of a defined type. */
  function Underlying(t: Type): Type {
    match t
    case Named(_, u) => Underlying(u)
    case _ => t
  }

  /** Go's assignability for the cases that arise here: identical types, or
      identical underlying types when one of the two is not a defined type. */
  predicate AssignableTo(v: Type, t: Type) {
    v == t || (Underlying(v) == Underlying(t) && (!v.Named? || !t.Named?))
  }

  /** Store a pointer of type `*elem` to the parsed literal into a field of
      pointer type `typ` (`val.Set(reflect.ValueOf(&x))`). */
  function Point<T>(typ: Type, elem: Type, p: Option<T>, wrap: T -> Stored): Outcome {
    match p
    case None => Unparsed
    case Some(x) =>
      if AssignableTo(PointerTo(elem), typ) then Outcome(Some(Address(PointerTo(elem), wrap(x))), Success)
      else Outcome(None, Panic)
  }

  /** setFieldValue: dispatch on the declared kind of the field. */
  function SetFieldValue(typ: Type, raw: string, lit: Literals): (o: Outcome)
    ensures o.status == Failure(ParseFailure) ==> o.write.None?
    ensures o.status == Panic ==> KindOf(typ) == Ptr && o.write.None?
    ensures o.write.Some? ==> o.status == Success || (IsTimeType(typ) && o.status == Failure(Unsupported))
  {
    match KindOf(typ)
    case Atomic(a) => (
      match a
      case Bool => Parsed(lit.parseBool(raw), (b: bool) => BoolVal(b))
      case Int | Int8 | Int16 | Int32 => Parsed(lit.parseInt(raw, IntSize), (i: int) => IntVal(i))
      case Int64 =>
        if typ == DurationType then Parsed(lit.parseDuration(raw), (d: int) => IntVal(d))
        else Parsed(lit.parseInt(raw, 64), (i: int) => IntVal(i))
      case Uint | Uint8 | Uint16 | Uint32 => Parsed(lit.parseUint(raw, IntSize), (u: nat) => UintVal(u))
      case Uint64 => Parsed(lit.parseUint(raw, 64), (u: nat) => UintVal(u))
      case Float32 | Float64 => Parsed(lit.parseFloat(raw), (f: Float) => FloatVal(f))
      case String => Outcome(Some(StringVal(raw)), Success)
      case _ => Rejected)
    case Ptr => SetPtrValue(typ, raw, lit)
    case Slice => SetSliceValue(typ, raw)
    case Struct =>
      if typ == TimeType then
        match lit.parseTime(raw)
        case None => Unparsed
        case Some(t) => Outcome(Some(TimeVal(t)), Failure(Unsupported))
      else Rejected
  }

  /** setPtrValue: dispatch on the kind of the pointed-to type. */
  function SetPtrValue(typ: Type, raw: string, lit: Literals): (o: Outcome)
    requires KindOf(typ) == Ptr
    ensures o.status == Failure(ParseFailure) || o.status == Panic ==> o.write.None?
    ensures o.write.Some? ==> o.write.value.Address?
    ensures o.write.Some? ==> o.status == Success || (typ == TimePtrType && o.status == Failure(Unsupported))
  {
    match KindOf(Elem(typ))
    case Atomic(a) => (
      match a
      case Bool => Point(typ, Basic(Bool), lit.parseBool(raw), (b: bool) => BoolVal(b))
      case Int | Int8 | Int16 | Int32 => Point(typ, Basic(Int64), lit.parseInt(raw, IntSize), (i: int) => IntVal(i))
      case Int64 =>
        if typ == DurationType then Point(typ, DurationType, lit.parseDuration(raw), (d: int) => IntVal(d))
        else Point(typ, Basic(Int64), lit.parseInt(raw, 64), (i: int) => IntVal(i))
      case Uint | Uint8 | Uint16 | Uint32 => Point(typ, Basic(Uint64), lit.parseUint(raw, IntSize), (u: nat) => UintVal(u))
      case Uint64 => Point(typ, Basic(Uint64), lit.parseUint(raw, 64), (u: nat) => UintVal(u))
      case Float32 | Float64 => Point(typ, Basic(Float64), lit.parseFloat(raw), (f: Float) => FloatVal(f))
      case String => Point(typ, Basic(String), Some(raw), (s: string) => StringVal(s))
      case _ => Rejected)
    case Struct =>
      if typ == TimePtrType then
        match lit.parseTime(raw)
        case None => Unparsed
        case Some(t) => Outcome(Some(Address(TimePtrType, TimeVal(t))), Failure(Unsupported))
      else Rejected
    case _ => Rejected
  }

  /** setSliceValue: not implemented by the library; succeeds without writing. */
  function SetSliceValue(typ: Type, raw: string): (o: Outcome)
    ensures o.write.None? && o.status == Success
  {
    Outcome(None, Success)
  }

  // ---------------------------------------------------------------------
  // The coercion table, stated once per kind, and the dispatch's agreement
  // with it.

  /** The scalar kinds that have a coercion rule. */
  predicate ScalarKind(a: AtomKind) {
    a in {Bool, Int, Int8, Int16, Int32, Int64, Uint, Uint8, Uint16, Uint32, Uint64, Float32, Float64, String}
  }

  /** The declared types the coercion table covers: scalars, slices (as a
      no-op), time.Time, and pointers to scalars or to time.Time. */
  predicate Supported(typ: Type) {
    match KindOf(typ)
    case Atomic(a) => ScalarKind(a)
    case Slice => true
    case Struct => typ == TimeType
    case Ptr =>
      || typ == TimePtrType
      || (KindOf(Elem(typ)).Atomic? && ScalarKind(KindOf(Elem(typ)).atom))
  }

  function Lift<T>(p: Option<T>, wrap: T -> Stored): Option<Stored> {
    match p
    case None => None
    case Some(x) => Some(wrap(x))
  }

  /** The literal rule of a scalar kind: which parser reads the raw string,
      at which bit size; `duration` selects the duration rule for int64. */
  function Decode(a: AtomKind, duration: bool, raw: string, lit: Literals): Option<Stored>
    requires ScalarKind(a)
  {
    match a
    case Bool => Lift(lit.parseBool(raw), (b: bool) => BoolVal(b))
    case Int | Int8 | Int16 | Int32 => Lift(lit.parseInt(raw, IntSize), (i: int) => IntVal(i))
    case Int64 =>
      if duration then Lift(lit.parseDuration(raw), (d: int) => IntVal(d))
      else Lift(lit.parseInt(raw, 64), (i: int) => IntVal(i))
    case Uint | Uint8 | Uint16 | Uint32 => Lift(lit.parseUint(raw, IntSize), (u: nat) => UintVal(u))
    case Uint64 => Lift(lit.parseUint(raw, 64), (u: nat) => UintVal(u))
    case Float32 | Float64 => Lift(lit.parseFloat(raw), (f: Float) => FloatVal(f))
    case String => Some(StringVal(raw))
  }

  /** The variable type the parser of kind `a` produces (int64, uint64,
      float64, bool or string). */
  function Produced(a: AtomKind): Type
    requires ScalarKind(a)
  {
    match a
    case Bool => Basic(Bool)
    case Int | Int8 | Int16 | Int32 | Int64 => Basic(Int64)
    case Uint | Uint8 | Uint16 | Uint32 | Uint64 => Basic(Uint64)
    case Float32 | Float64 => Basic(Float64)
    case String => Basic(String)
  }

  /** A decoded literal is written and succeeds; a rejected one fails with
      the parser's error and writes nothing. */
  function Written(d: Option<Stored>): (o: Outcome)
    ensures o.write == d
    ensures o.status == if d.Some? then Success else Failure(ParseFailure)
  {
    match d
    case None => Unparsed
    case Some(x) => Outcome(Some(x), Success)
  }

  /** A scalar field is written with the value its kind's literal rule reads
      (the duration rule exactly for time.Duration), or the parse error is
      returned and the field is left alone. A string is stored verbatim. */
  lemma ScalarFieldFollowsTable(typ: Type, raw: string, lit: Literals)
    requires KindOf(typ).Atomic? && ScalarKind(KindOf(typ).atom)
    ensures SetFieldValue(typ, raw, lit) == Written(Decode(KindOf(typ).atom, typ == DurationType, raw, lit))
  {
  }

  /** A pointer-to-scalar field parses with the pointed-to kind's rule, but
      never with the duration rule, and stores a pointer to the parser's own
      result type; when that pointer is not assignable to the field, Set
      panics. */
  lemma PointerFollowsTable(typ: Type, raw: string, lit: Literals)
    requires KindOf(typ) == Ptr && KindOf(Elem(typ)).Atomic? && ScalarKind(KindOf(Elem(typ)).atom)
    ensures var a := KindOf(Elem(typ)).atom;
      SetFieldValue(typ, raw, lit)
      == match Decode(a, false, raw, lit)
         case None => Unparsed
         case Some(x) =>
           if AssignableTo(PointerTo(Produced(a)), typ) then Outcome(Some(Address(PointerTo(Produced(a)), x)), Success)
           else Outcome(None, Panic)
  {
    assert typ != DurationType;
  }

  /** The parser that the field's rule consults accepts the raw string. A
      pointer to a scalar consults its element kind's parser, never the
      duration parser; a time or time-pointer field consults time.Parse. */
  predicate Parses(typ: Type, raw: string, lit: Literals)
    requires Supported(typ)
  {
    assert KindOf(TimeType) == Struct;
    match KindOf(typ)
    case Atomic(a) => Decode(a, typ == DurationType, raw, lit).Some?
    case Slice => true
    case Struct => lit.parseTime(raw).Some?
    case Ptr =>
      if KindOf(Elem(typ)).Atomic? then Decode(KindOf(Elem(typ)).atom, false, raw, lit).Some?
      else lit.parseTime(raw).Some?
  }

  /** A pointer-to-scalar field whose type does not accept a pointer to the
      parser's result type. */
  predicate Mismatched(typ: Type)
    requires Supported(typ)
  {
    assert KindOf(TimeType) == Struct;
    && KindOf(typ) == Ptr && KindOf(Elem(typ)).Atomic?
    && !AssignableTo(PointerTo(Produced(KindOf(Elem(typ)).atom)), typ)
  }

  /** The shape of the dispatch: a type outside the table is rejected
      without a write; a slice is a no-op; for every other supported type a
      literal its parser rejects is a parse failure without a write, an
      accepted literal is written unless the pointer stored does not fit the
      field (a panic), and the call succeeds exactly when it writes a
      non-time field. A string is stored verbatim. */
  lemma CoercionOutcomes(typ: Type, raw: string, lit: Literals)
    ensures !Supported(typ) ==> SetFieldValue(typ, raw, lit) == Rejected
    ensures KindOf(typ) == Slice ==> SetFieldValue(typ, raw, lit) == Outcome(None, Success)
    ensures Supported(typ) && KindOf(typ) != Slice ==>
      var o := SetFieldValue(typ, raw, lit);
      && (o.status == Failure(ParseFailure) <==> !Parses(typ, raw, lit))
      && (o.status == Panic <==> Parses(typ, raw, lit) && Mismatched(typ))
      && (o.write.Some? <==> Parses(typ, raw, lit) && !Mismatched(typ))
      && (o.status == Success <==> Parses(typ, raw, lit) && !Mismatched(typ) && !IsTimeType(typ))
    ensures KindOf(typ) == Atomic(String) ==> SetFieldValue(typ, raw, lit) == Outcome(Some(StringVal(raw)), Success)
  {
    assert KindOf(TimePtrType) == Ptr && KindOf(TimeType) == Struct;
    match KindOf(typ)
    case Atomic(a) =>
      if ScalarKind(a) {
        ScalarFieldFollowsTable(typ, raw, lit);
        TimeTypesAreComposite(typ);
      }
    case Ptr =>
      if KindOf(Elem(typ)).Atomic? && ScalarKind(KindOf(Elem(typ)).atom) {
        PointerFollowsTable(typ, raw, lit);
      }
    case _ =>
  }

  /** The coercion reports an unsupported type exactly for the types outside
      the table, and for time fields whose value parsed. */
  lemma UnsupportedExactly(typ: Type, raw: string, lit: Literals)
    ensures SetFieldValue(typ, raw, lit).status == Failure(Unsupported)
        <==> !Supported(typ) || (IsTimeType(typ) && lit.parseTime(raw).Some?)
  {
    assert KindOf(TimePtrType) == Ptr && KindOf(TimeType) == Struct;
    if KindOf(typ) == Ptr && typ != TimePtrType && KindOf(Elem(typ)).Atomic? {
      var a := KindOf(Elem(typ)).atom;
      if ScalarKind(a) {
        PointerFollowsTable(typ, raw, lit);
      }
    }
  }

  // ---------------------------------------------------------------------
  // Three places where the code evidently departs from its intent.

  /** A time field (or pointer to one) is written and yet the call reports
      an unsupported type: the struct branch falls through to its error. */
  lemma TimeWriteReportsUnsupported(raw: string, lit: Literals, t: Instant)
    requires lit.parseTime(raw) == Some(t)
    ensures SetFieldValue(TimeType, raw, lit) == Outcome(Some(TimeVal(t)), Failure(Unsupported))
    ensures SetFieldValue(TimePtrType, raw, lit)
         == Outcome(Some(Address(TimePtrType, TimeVal(t))), Failure(Unsupported))
  {
    assert KindOf(TimePtrType) == Ptr && KindOf(TimeType) == Struct;
  }

  /** A `*time.Duration` field never takes the duration rule (the pointer
      type is compared with time.Duration itself): a duration literal that
      is not an integer fails to parse, and an integer one makes Set panic,
      since a `*int64` is not assignable to `*time.Duration`. */
  lemma PointerDurationSkipsDurationRule(raw: string, lit: Literals)
    ensures SetFieldValue(PointerTo(DurationType), raw, lit)
         == if lit.parseInt(raw, 64).None? then Unparsed else Outcome(None, Panic)
  {
    PointerFollowsTable(PointerTo(DurationType), raw, lit);
  }

  /** A pointer to a narrower or platform-sized integer receives a `*int64`,
      which is not assignable to it: Set panics on every valid literal. */
  lemma NarrowPointerPanics(raw: string, lit: Literals, n: int)
    requires lit.parseInt(raw, IntSize) == Some(n)
    ensures SetFieldValue(PointerTo(Basic(Int)), raw, lit) == Outcome(None, Panic)
    ensures SetFieldValue(PointerTo(Basic(Int32)), raw, lit) == Outcome(None, Panic)
  {
    PointerFollowsTable(PointerTo(Basic(Int)), raw, lit);
    PointerFollowsTable(PointerTo(Basic(Int32)), raw, lit);
  }

  /** The coercion as evidently intended: every type in the table follows its
      literal rule; a time value that parsed is a success; a pointer field
      gets a fresh variable of the pointed-to type, filled by the pointed-to
      type's own rule (so `*time.Duration` reads a duration). */
  function SetValueIntended(typ: Type, raw: string, lit: Literals): (o: Outcome)
    ensures o.status != Panic
    ensures o.write.Some? ==> o.status == Success
    ensures o.status == Failure(Unsupported) <==> !Supported(typ)
    decreases Depth(typ)
  {
    match KindOf(typ)
    case Atomic(a) =>
      if ScalarKind(a) then Written(Decode(a, typ == DurationType, raw, lit)) else Rejected
    case Slice => SetSliceValue(typ, raw)
    case Struct =>
      if typ == TimeType then Written(Lift(lit.parseTime(raw), (t: Instant) => TimeVal(t))) else Rejected
    case Ptr =>
      var e := Elem(typ);
      if Supported(typ) then
        assert Supported(e) by {
          assert KindOf(TimeType) == Struct;
        }
        var inner := SetValueIntended(e, raw, lit);
        Outcome(Lift(inner.write, (x: Stored) => Address(typ, x)), inner.status)
      else Rejected
  }

  /** Under the intended coercion a time or time-pointer field fails exactly
      when the timestamp does not parse, and otherwise holds the parsed time
      (through a fresh pointer for `*time.Time`) with success. */
  lemma IntendedTimeIsWritten(raw: string, lit: Literals)
    ensures SetValueIntended(TimeType, raw, lit)
      == match lit.parseTime(raw)
         case None => Unparsed
         case Some(t) => Outcome(Some(TimeVal(t)), Success)
    ensures SetValueIntended(TimePtrType, raw, lit)
      == match lit.parseTime(raw)
         case None => Unparsed
         case Some(t) => Outcome(Some(Address(TimePtrType, TimeVal(t))), Success)
  {
    assert KindOf(TimePtrType) == Ptr && KindOf(TimeType) == Struct;
    assert Supported(TimePtrType);
  }

  /** Under the intended coercion a `*time.Duration` field reads a duration
      and receives the address of a fresh duration. */
  lemma IntendedPointerDurationReadsDuration(raw: string, lit: Literals)
    ensures SetValueIntended(PointerTo(DurationType), raw, lit)
      == match lit.parseDuration(raw)
         case None => Unparsed
         case Some(d) => Outcome(Some(Address(PointerTo(DurationType), IntVal(d))), Success)
  {
    assert Supported(PointerTo(DurationType));
  }

  /** Under the intended coercion a pointer to a scalar holds exactly what the
      code writes into a field of the pointed-to type, one indirection away,
      with the same status. */
  lemma IntendedPointerAgreesWithElement(e: Type, raw: string, lit: Literals)
    requires KindOf(e).Atomic? && ScalarKind(KindOf(e).atom)
    ensures SetValueIntended(PointerTo(e), raw, lit).status == SetFieldValue(e, raw, lit).status
    ensures SetValueIntended(PointerTo(e), raw, lit).write
      == Lift(SetFieldValue(e, raw, lit).write, (x: Stored) => Address(PointerTo(e), x))
  {
    ScalarFieldFollowsTable(e, raw, lit);
    TimeTypesAreComposite(e);
    IntendedAgreesOffQuirks(e, raw, lit);
  }

  /** Away from the three departures, the intended coercion is the code's:
      every non-pointer type other than time.Time is coerced identically. */
  lemma IntendedAgreesOffQuirks(typ: Type, raw: string, lit: Literals)
    requires KindOf(typ) != Ptr && typ != TimeType
    ensures SetValueIntended(typ, raw, lit) == SetFieldValue(typ, raw, lit)
  {
    if KindOf(typ).Atomic? && ScalarKind(KindOf(typ).atom) {
      ScalarFieldFollowsTable(typ, raw, lit);
    }
  }
}

=== FILE: errors.dfy ===
/** Error kinds and the failure-compatible wrappers shared by the whole model.
    The library classifies its errors under three sentinels (invalid config,
    invalid tag format, unsupported type); failures of the literal parsers are
    passed through unwrapped, which the model records as a fourth kind. */
module Errors {

  datatype ErrorKind =
    | InvalidConfig     // the root is not a pointer to a struct
    | InvalidTagFormat  // `env=`, `flag=` or `default=` with nothing after `=`
    | Unsupported       // no coercion rule for the declared type
    | ParseFailure      // a literal parser rejected the raw string

  datatype Option<+T> = None | Some(value: T)

  /** The value of an operation that may fail with one of the error kinds. */
  datatype Result<+T> = Ok(value: T) | Err(error: ErrorKind) {

    predicate IsFailure() {
      Err?
    }

    function PropagateFailure<U>(): Result<U>
      requires Err?
    {
      Err(error)
    }

    function Extract(): T
      requires Ok?
    {
      value
    }
  }
}

=== FILE: fields.dfy ===
/** Catalog entries and the keys derived from them (reflect.go, fieldInfo,
    path, ENVKey, FlagKey, DefVal). An entry points at its structural parent,
    the entry of the enclosing non-embedded struct field, so the chain of
    parents spells the field's nesting path. */
module Fields {
  import opened Errors
  import opened Strings
  import opened Tags
  import opened Types

  /** One catalog entry. `loc` is the handle to the field's storage: the
      path from the root pointer to the value the entry describes. */
  datatype FieldInfo = FieldInfo(
    parent: Option<FieldInfo>,
    field: StructField,
    loc: Loc,
    tag: TagInfo)
  {
    function Name(): string {
      field.name
    }
  }

  const EnvSeparator: char := '_'
  const FlagSeparator: char := '-'

  /** Number of ancestors of an entry. */
  function Nesting(f: FieldInfo): nat {
    if f.parent.None? then 0 else 1 + Nesting(f.parent.value)
  }

  /** The names from the outermost ancestor down to the entry itself. */
  function Path(f: FieldInfo): (p: seq<string>)
    ensures |p| == Nesting(f) + 1
    ensures p[|p| - 1] == f.Name()
  {
    match f.parent
    case None => [f.Name()]
    case Some(q) => Path(q) + [f.Name()]
  }

  /** The path of an optional parent (empty for a root-level field). */
  function Ancestry(p: Option<FieldInfo>): seq<string> {
    match p
    case None => []
    case Some(q) => Path(q)
  }

  /** fieldInfo.path: start from the entry's own name and prepend the name of
      each ancestor while walking up the parent chain. */
  method CollectPath(f: FieldInfo) returns (path: seq<string>)
    ensures path == Path(f)
  {
    path := [f.Name()];
    var p := f.parent;
    assert Path(f) == Ancestry(f.parent) + [f.Name()];
    while p.Some?
      invariant Ancestry(p) + path == Path(f)
      decreases if p.Some? then 1 + Nesting(p.value) else 0
    {
      var q := p.value;
      ghost var above := Ancestry(q.parent);
      assert Ancestry(p) == above + [q.Name()];
      assert above + ([q.Name()] + path) == (above + [q.Name()]) + path;
      path := [q.Name()] + path;
      p := q.parent;
    }
  }

  /** fieldInfo.ENVKey: empty unless `env` was given; the explicit key if
      there is one; otherwise the path joined with `_` and upper-cased. */
  function ENVKey(f: FieldInfo): string
  {
    if f.tag.hasENV then
      if f.tag.env == "" then Upper(Join(Path(f), EnvSeparator)) else f.tag.env
    else ""
  }

  /** fieldInfo.FlagKey: the same rule with `-` and lower case. */
  function FlagKey(f: FieldInfo): string
  {
    if f.tag.hasFlag then
      if f.tag.flag == "" then Lower(Join(Path(f), FlagSeparator)) else f.tag.flag
    else ""
  }

  /** fieldInfo.DefVal: the stored default, only when `default` was given. */
  function DefVal(f: FieldInfo): string
  {
    if f.tag.hasDefault then f.tag.defVal else ""
  }

  // ---------------------------------------------------------------------
  // Properties of the derived keys.

  /** A joined path is empty only if the single name in it is empty. */
  lemma {:induction false} JoinNonEmpty(parts: seq<string>, sep: char)
    requires |parts| >= 1 && parts[|parts| - 1] != ""
    ensures Join(parts, sep) != ""
  {
    if |parts| > 1 {
      assert |Join(parts, sep)| >= |parts[0]| + 1;
    }
  }

  /** With a non-empty field name, an empty key means exactly "not bindable
      from that source". */
  lemma EmptyKeyMeansAbsent(f: FieldInfo)
    requires f.Name() != ""
    ensures ENVKey(f) == "" <==> !f.tag.hasENV
    ensures FlagKey(f) == "" <==> !f.tag.hasFlag
  {
    JoinNonEmpty(Path(f), EnvSeparator);
    JoinNonEmpty(Path(f), FlagSeparator);
  }

  /** The env key of an entry, read off its annotation: empty when no token
      names `env`; the value of the last `env=KEY` token when there is one;
      otherwise the upper-cased path joined with `_`. */
  lemma EnvKeyFromAnnotation(e: FieldInfo)
    requires ParseTag(e.field.tag) == Ok(e.tag)
    ensures var tokens := Split(e.field.tag, TagSeparator);
      var key := LastExplicit(tokens, Env, "");
      ENVKey(e) == if !Mentions(tokens, Env) then ""
                   else if key != "" then key
                   else Upper(Join(Path(e), EnvSeparator))
  {
    ParseTagSpec(e.field.tag);
  }

  /** The flag key of an entry, read off its annotation, by the same rule
      with `-` and lower case. */
  lemma FlagKeyFromAnnotation(e: FieldInfo)
    requires ParseTag(e.field.tag) == Ok(e.tag)
    ensures var tokens := Split(e.field.tag, TagSeparator);
      var key := LastExplicit(tokens, Flag, "");
      FlagKey(e) == if !Mentions(tokens, Flag) then ""
                    else if key != "" then key
                    else Lower(Join(Path(e), FlagSeparator))
  {
    ParseTagSpec(e.field.tag);
  }

  /** The default of an entry is the value of the last `default=VALUE`
      token, and empty when there is none: a bare `default` yields "". */
  lemma DefValFromAnnotation(e: FieldInfo)
    requires ParseTag(e.field.tag) == Ok(e.tag)
    ensures var tokens := Split(e.field.tag, TagSeparator);
      && DefVal(e) == LastExplicit(tokens, Default, "")
      && e.tag.hasDefault == Mentions(tokens, Default)
  {
    var tokens := Split(e.field.tag, TagSeparator);
    ParseTagSpec(e.field.tag);
    if !Mentions(tokens, Default) && LastExplicit(tokens, Default, "") != "" {
      ExplicitMentions(tokens, Default, "");
    }
  }

  /** An explicit `env=KEY` fixes the env key wherever the field is nested,
      whatever else the annotation says. */
  lemma ExplicitEnvKeyIgnoresPath(e: FieldInfo, g: FieldInfo)
    requires ParseTag(e.field.tag) == Ok(e.tag) && ParseTag(g.field.tag) == Ok(g.tag)
    requires e.field.tag == g.field.tag
    requires LastExplicit(Split(e.field.tag, TagSeparator), Env, "") != ""
    ensures ENVKey(e) == ENVKey(g) == LastExplicit(Split(e.field.tag, TagSeparator), Env, "")
  {
    ExplicitMentions(Split(e.field.tag, TagSeparator), Env, "");
    EnvKeyFromAnnotation(e);
    EnvKeyFromAnnotation(g);
  }

  /** An explicit `flag=KEY` fixes the flag key wherever the field is nested. */
  lemma ExplicitFlagKeyIgnoresPath(e: FieldInfo, g: FieldInfo)
    requires ParseTag(e.field.tag) == Ok(e.tag) && ParseTag(g.field.tag) == Ok(g.tag)
    requires e.field.tag == g.field.tag
    requires LastExplicit(Split(e.field.tag, TagSeparator), Flag, "") != ""
    ensures FlagKey(e) == FlagKey(g) == LastExplicit(Split(e.field.tag, TagSeparator), Flag, "")
  {
    ExplicitMentions(Split(e.field.tag, TagSeparator), Flag, "");
    FlagKeyFromAnnotation(e);
    FlagKeyFromAnnotation(g);
  }

  /** The derived env key splits back, on `_`, into the upper-cased path,
      provided no name contains `_`: the derivation loses nothing but case. */
  lemma EnvKeySegments(f: FieldInfo)
    requires f.tag.hasENV && f.tag.env == ""
    requires forall i :: 0 <= i < |Path(f)| ==> EnvSeparator !in Path(f)[i]
    ensures Split(ENVKey(f), EnvSeparator) == MapAll(Path(f), UpperChar)
  {
    var p := Path(f);
    MapJoin(p, EnvSeparator, UpperChar);
    forall i | 0 <= i < |p| ensures EnvSeparator !in MapAll(p, UpperChar)[i] {
      MapKeepsSeparatorOut(p[i], EnvSeparator, UpperChar);
    }
    SplitJoin(MapAll(p, UpperChar), EnvSeparator);
  }

  /** The derived flag key splits back, on `-`, into the lower-cased path,
      provided no name contains `-`. */
  lemma FlagKeySegments(f: FieldInfo)
    requires f.tag.hasFlag && f.tag.flag == ""
    requires forall i :: 0 <= i < |Path(f)| ==> FlagSeparator !in Path(f)[i]
    ensures Split(FlagKey(f), FlagSeparator) == MapAll(Path(f), LowerChar)
  {
    var p := Path(f);
    MapJoin(p, FlagSeparator, LowerChar);
    forall i | 0 <= i < |p| ensures FlagSeparator !in MapAll(p, LowerChar)[i] {
      MapKeepsSeparatorOut(p[i], FlagSeparator, LowerChar);
    }
    SplitJoin(MapAll(p, LowerChar), FlagSeparator);
  }

  /** The path of an entry starts with the name of its outermost ancestor. */
  lemma {:induction false} PathShape(f: FieldInfo)
    ensures Path(f)[0] == Root(f).Name()
  {
    if f.parent.Some? {
      PathShape(f.parent.value);
    }
  }

  /** The outermost ancestor of an entry (the entry itself at root level). */
  function Root(f: FieldInfo): (r: FieldInfo)
    ensures r.parent.None?
  {
    if f.parent.None? then f else Root(f.parent.value)
  }
}

=== FILE: scenarios.dfy ===
/** A worked example through the whole pipeline: a two-field struct whose
    fields are annotated `env,flag` and `env=SERVICE_PORT,default=8080`. */
module Scenarios {
  import opened Errors
  import opened Strings
  import opened Tags
  import opened Types
  import opened Fields
  import opened Walker
  import opened WalkerProperties

  const HostField := StructField("Host", Basic(String), true, false, "env,flag")
  const PortField := StructField("Port", Basic(Int), true, false, "env=SERVICE_PORT,default=8080")
  const ServiceType := StructOf([HostField, PortField])
  const Service := Ref(PointerTo(ServiceType), Record(ServiceType, [Plain(Basic(String)), Plain(Basic(Int))]))

  /** An annotation of two comma-free tokens splits into those tokens. */
  lemma SplitTwo(a: string, b: string)
    requires TagSeparator !in a && TagSeparator !in b
    ensures Split(a + [TagSeparator] + b, TagSeparator) == [a, b]
  {
    var tokens := [a, b];
    assert tokens[1..] == [b];
    assert Join(tokens, TagSeparator) == a + [TagSeparator] + b;
    SplitJoin(tokens, TagSeparator);
  }

  lemma HostTokens()
    ensures ParseTokens(NoTag, ["env", "flag"]) == Ok(TagInfo("", true, "", true, "", false))
  {
    ParseTokensSpec(NoTag, ["env", "flag"]);
  }

  const PortEnvOnly := TagInfo("", false, "SERVICE_PORT", true, "", false)

  lemma PortFirstToken()
    ensures ApplyToken(NoTag, "env=SERVICE_PORT") == Ok(PortEnvOnly)
  {
    var x := "env=SERVICE_PORT";
    ApplyTokenSpec(NoTag, x);
    assert IsExplicit(x, Env) && !IsExplicit(x, Flag) && !IsExplicit(x, Default);
    assert x[|WithValue(Env)|..] == "SERVICE_PORT";
  }

  lemma PortSecondToken()
    ensures ApplyToken(PortEnvOnly, "default=8080") == Ok(TagInfo("", false, "SERVICE_PORT", true, "8080", true))
  {
    var x := "default=8080";
    ApplyTokenSpec(PortEnvOnly, x);
    assert IsExplicit(x, Default) && !IsExplicit(x, Flag) && !IsExplicit(x, Env);
    assert x[|WithValue(Default)|..] == "8080";
  }

  lemma PortTokens()
    ensures ParseTokens(NoTag, ["env=SERVICE_PORT", "default=8080"])
         == Ok(TagInfo("", false, "SERVICE_PORT", true, "8080", true))
  {
    var tokens := ["env=SERVICE_PORT", "default=8080"];
    PortFirstToken();
    PortSecondToken();
    assert tokens[1..] == ["default=8080"] && tokens[1..][1..] == [];
  }

  lemma HostSplit()
    ensures Split(HostField.tag, TagSeparator) == ["env", "flag"]
  {
    assert HostField.tag == "env" + [TagSeparator] + "flag";
    SplitTwo("env", "flag");
  }

  lemma PortSplit()
    ensures Split(PortField.tag, TagSeparator) == ["env=SERVICE_PORT", "default=8080"]
  {
    assert PortField.tag == "env=SERVICE_PORT" + [TagSeparator] + "default=8080";
    SplitTwo("env=SERVICE_PORT", "default=8080");
  }

  /** `env,flag`: both families, neither with an explicit value. */
  lemma HostTag()
    ensures ParseTag(HostField.tag) == Ok(TagInfo("", true, "", true, "", false))
  {
    HostSplit();
    HostTokens();
  }

  /** `env=SERVICE_PORT,default=8080`: an explicit key and a default. */
  lemma PortTag()
    ensures ParseTag(PortField.tag) == Ok(TagInfo("", false, "SERVICE_PORT", true, "8080", true))
  {
    PortSplit();
    PortTokens();
  }

  lemma ServiceShape()
    ensures KindOf(ServiceType) == Struct && FieldsOf(ServiceType) == [HostField, PortField]
    ensures WellTyped(Service)
    ensures forall g :: g in FieldsOf(ServiceType) ==> PlainField(g)
    ensures Exported(FieldsOf(ServiceType)) == [HostField, PortField]
  {
    assert Exported([PortField]) == [PortField];
  }

  lemma ServiceTagsValid()
    ensures TagsValid(ServiceType)
  {
    ServiceShape();
    HostTag();
    PortTag();
    var fs := FieldsOf(ServiceType);
    assert TagsValid(Basic(String)) && TagsValid(Basic(Int));
    forall i | 0 <= i < |fs| ensures ParseTag(fs[i].tag).Ok? && TagsValid(fs[i].typ) {
      assert i == 0 || i == 1;
    }
  }

  /** The catalog of the example: `Host` then `Port`, both at root level,
      carrying their parsed annotations. */
  lemma ServiceCatalog()
    ensures WellTyped(Service) && Build(Service).Ok?
    ensures var c := Build(Service).value.catalog;
      && |c| == 2
      && c[0] == FieldInfo(None, HostField, c[0].loc, TagInfo("", true, "", true, "", false))
      && c[1] == FieldInfo(None, PortField, c[1].loc, TagInfo("", false, "SERVICE_PORT", true, "8080", true))
  {
    ServiceShape();
    ServiceTagsValid();
    FlatStructCatalog(Service);
    var c := Build(Service).value.catalog;
    assert FieldsOfCatalog(c) == [HostField, PortField];
    assert c[0] in c && c[1] in c;
    HostTag();
    PortTag();
  }

  lemma UpperHost()
    ensures Upper("Host") == "HOST" && Lower("Host") == "host"
  {
  }

  lemma HostKeys(e: FieldInfo)
    requires e == FieldInfo(None, HostField, e.loc, TagInfo("", true, "", true, "", false))
    ensures ENVKey(e) == "HOST" && FlagKey(e) == "host" && DefVal(e) == ""
  {
    assert Path(e) == ["Host"];
    UpperHost();
  }

  lemma PortKeys(e: FieldInfo)
    requires e == FieldInfo(None, PortField, e.loc, TagInfo("", false, "SERVICE_PORT", true, "8080", true))
    ensures ENVKey(e) == "SERVICE_PORT" && FlagKey(e) == "" && DefVal(e) == "8080"
  {
  }

  /** The keys of the example: `HOST` and `host` derived from the path, an
      explicit `SERVICE_PORT`, and the default `8080`. */
  lemma ServiceKeys()
    ensures WellTyped(Service) && Build(Service).Ok?
    ensures var c := Build(Service).value.catalog;
      && |c| == 2
      && ENVKey(c[0]) == "HOST" && FlagKey(c[0]) == "host" && DefVal(c[0]) == ""
      && ENVKey(c[1]) == "SERVICE_PORT" && FlagKey(c[1]) == "" && DefVal(c[1]) == "8080"
  {
    ServiceCatalog();
    var c := Build(Service).value.catalog;
    HostKeys(c[0]);
    PortKeys(c[1]);
  }
}

=== FILE: strings.dfy ===
/** The few string operations the library takes from Go's `strings` package:
    prefix tests, splitting and joining on a one-character separator, and
    ASCII case mapping. */
module Strings {

  predicate HasPrefix(s: string, p: string) {
    |p| <= |s| && s[..|p|] == p
  }

  /** `strings.TrimPrefix`: drop `p` from the front of `s` if it is there. */
  function TrimPrefix(s: string, p: string): (r: string)
    ensures HasPrefix(s, p) ==> p + r == s
    ensures !HasPrefix(s, p) ==> r == s
  {
    if HasPrefix(s, p) then s[|p|..] else s
  }

  /** `strings.Split` with a one-character separator: the pieces between the
      separators, so a string with n separators has n + 1 pieces and the
      empty string has the single piece "". */
  function Split(s: string, sep: char): (parts: seq<string>)
    ensures |parts| == Count(s, sep) + 1
    ensures forall i :: 0 <= i < |parts| ==> sep !in parts[i]
  {
    if |s| == 0 then [""]
    else
      var rest := Split(s[1..], sep);
      if s[0] == sep then [""] + rest
      else [[s[0]] + rest[0]] + rest[1..]
  }

  /** Number of occurrences of `c` in `s`. */
  function Count(s: string, c: char): nat {
    if |s| == 0 then 0 else (if s[0] == c then 1 else 0) + Count(s[1..], c)
  }

  /** `strings.Join` with a one-character separator. */
  function Join(parts: seq<string>, sep: char): string {
    if |parts| == 0 then ""
    else if |parts| == 1 then parts[0]
    else parts[0] + [sep] + Join(parts[1..], sep)
  }

  /** Joining the pieces of a split gives back the original string. */
  lemma {:induction false} JoinSplit(s: string, sep: char)
    ensures Join(Split(s, sep), sep) == s
  {
    if |s| == 0 {
    } else {
      var rest := Split(s[1..], sep);
      JoinSplit(s[1..], sep);
      if s[0] == sep {
        assert Join([""] + rest, sep) == "" + [sep] + Join(rest, sep);
        assert s == [s[0]] + s[1..];
      } else if |rest| == 1 {
        assert s == [s[0]] + s[1..];
      } else {
        var parts := [[s[0]] + rest[0]] + rest[1..];
        assert parts[1..] == rest[1..];
        assert Join(rest, sep) == rest[0] + [sep] + Join(rest[1..], sep);
        assert s == [s[0]] + s[1..];
      }
    }
  }

  /** Splitting a separator-free prefix glued to `rest` extends the first
      piece of `rest`. */
  lemma {:induction false} SplitPrefix(a: string, rest: string, sep: char)
    requires sep !in a
    ensures Split(a + rest, sep) == [a + Split(rest, sep)[0]] + Split(rest, sep)[1..]
  {
    if |a| == 0 {
      var S := Split(rest, sep);
      assert a + rest == rest;
      assert a + S[0] == S[0];
      assert [S[0]] + S[1..] == S;
    } else {
      var S := Split(rest, sep);
      SplitPrefix(a[1..], rest, sep);
      assert (a + rest)[0] == a[0] != sep;
      assert (a + rest)[1..] == a[1..] + rest;
      var R := Split(a[1..] + rest, sep);
      assert R == [a[1..] + S[0]] + S[1..];
      assert Split(a + rest, sep) == [[a[0]] + R[0]] + R[1..];
      assert [a[0]] + (a[1..] + S[0]) == a + S[0];
    }
  }

  /** Splitting a join of separator-free pieces gives back the pieces. */
  lemma {:induction false} SplitJoin(parts: seq<string>, sep: char)
    requires |parts| >= 1
    requires forall i :: 0 <= i < |parts| ==> sep !in parts[i]
    ensures Split(Join(parts, sep), sep) == parts
  {
    if |parts| == 1 {
      SplitPrefix(parts[0], "", sep);
      assert parts[0] + "" == parts[0];
    } else {
      var tail := Join(parts[1..], sep);
      SplitJoin(parts[1..], sep);
      assert Join(parts, sep) == parts[0] + ([sep] + tail);
      SplitPrefix(parts[0], [sep] + tail, sep);
      assert ([sep] + tail)[1..] == tail;
      assert Split([sep] + tail, sep) == [""] + Split(tail, sep);
      assert parts[0] + "" == parts[0];
      assert [parts[0]] + parts[1..] == parts;
    }
  }

  /** ASCII `unicode.ToUpper` / `unicode.ToLower`. */
  function UpperChar(c: char): char {
    if 'a' <= c <= 'z' then (c as int - 32) as char else c
  }

  function LowerChar(c: char): char {
    if 'A' <= c <= 'Z' then (c as int + 32) as char else c
  }

  /** Apply `f` to every character of `s`. */
  function MapChars(s: string, f: char -> char): (r: string)
    ensures |r| == |s|
    ensures forall i :: 0 <= i < |s| ==> r[i] == f(s[i])
  {
    if |s| == 0 then "" else [f(s[0])] + MapChars(s[1..], f)
  }

  /** `strings.ToUpper` restricted to ASCII. */
  function Upper(s: string): string {
    MapChars(s, UpperChar)
  }

  /** `strings.ToLower` restricted to ASCII. */
  function Lower(s: string): string {
    MapChars(s, LowerChar)
  }

  /** Apply `MapChars(_, f)` to every piece. */
  function MapAll(parts: seq<string>, f: char -> char): (r: seq<string>)
    ensures |r| == |parts|
    ensures forall i :: 0 <= i < |parts| ==> r[i] == MapChars(parts[i], f)
  {
    seq(|parts|, i requires 0 <= i < |parts| => MapChars(parts[i], f))
  }

  /** Mapping characters commutes with joining, when the separator is a
      fixed point of the mapping. */
  lemma {:induction false} MapJoin(parts: seq<string>, sep: char, f: char -> char)
    requires f(sep) == sep
    ensures MapChars(Join(parts, sep), f) == Join(MapAll(parts, f), sep)
  {
    if |parts| <= 1 {
    } else {
      MapJoin(parts[1..], sep, f);
      assert MapAll(parts, f)[1..] == MapAll(parts[1..], f);
      var l := MapChars(Join(parts, sep), f);
      var r := Join(MapAll(parts, f), sep);
      assert |l| == |r|;
      forall i | 0 <= i < |l| ensures l[i] == r[i] {
        var n := |parts[0]|;
        if i < n {
        } else if i == n {
        } else {
          assert Join(parts, sep)[i] == Join(parts[1..], sep)[i - n - 1];
        }
      }
    }
  }

  /** A mapping under which only the separator maps to the separator keeps
      separator-free strings separator-free. */
  lemma MapKeepsSeparatorOut(s: string, sep: char, f: char -> char)
    requires forall c :: f(c) == sep ==> c == sep
    requires sep !in s
    ensures sep !in MapChars(s, f)
  {
  }
}

=== FILE: tags.dfy ===
/** The `config:"…"` annotation parser (reflect.go, parseTag and the three
    directive parsers). An annotation is a comma-separated list of tokens;
    each token is classified by prefix as an `env`, `flag` or `default`
    directive, or ignored. */
module Tags {
  import opened Errors
  import opened Strings

  const TagSeparator: char := ','

  /** The three directive families. */
  datatype Directive = Env | Flag | Default

  function Keyword(d: Directive): string {
    match d
    case Env => "env"
    case Flag => "flag"
    case Default => "default"
  }

  /** The prefix of the explicit-value form, e.g. `env=`. */
  function WithValue(d: Directive): string {
    Keyword(d) + "="
  }

  /** The parsed directive set of one field; an empty value string means
      "no explicit value". */
  datatype TagInfo = TagInfo(
    flag: string, hasFlag: bool,
    env: string, hasENV: bool,
    defVal: string, hasDefault: bool)
  {
    function Has(d: Directive): bool {
      match d
      case Env => hasENV
      case Flag => hasFlag
      case Default => hasDefault
    }

    function Value(d: Directive): string {
      match d
      case Env => env
      case Flag => flag
      case Default => defVal
    }

    /** Set the `has*` flag of `d`. */
    function Mark(d: Directive): TagInfo {
      match d
      case Env => this.(hasENV := true)
      case Flag => this.(hasFlag := true)
      case Default => this.(hasDefault := true)
    }

    /** Store `v` as the explicit value of `d`. */
    function Store(d: Directive, v: string): TagInfo {
      match d
      case Env => this.(env := v)
      case Flag => this.(flag := v)
      case Default => this.(defVal := v)
    }
  }

  /** The directive set of a field without annotation. */
  const NoTag := TagInfo("", false, "", false, "", false)

  /** No string starts with two different keywords, so the order in which the
      prefixes are tried does not matter. */
  lemma KeywordsDisjoint(s: string, d: Directive, e: Directive)
    requires HasPrefix(s, Keyword(d)) && HasPrefix(s, Keyword(e))
    ensures d == e
  {
    assert s[0] == Keyword(d)[0] && s[0] == Keyword(e)[0];
  }

  /** The family a token belongs to, tried in the order env, flag, default. */
  function Classify(s: string): (r: Option<Directive>)
    ensures forall d :: r == Some(d) <==> HasPrefix(s, Keyword(d))
  {
    if HasPrefix(s, "env") then
      assert forall d :: HasPrefix(s, Keyword(d)) ==> d == Env by {
        forall d | HasPrefix(s, Keyword(d)) ensures d == Env {
          KeywordsDisjoint(s, d, Env);
        }
      }
      Some(Env)
    else if HasPrefix(s, "flag") then
      assert forall d :: HasPrefix(s, Keyword(d)) ==> d == Flag by {
        forall d | HasPrefix(s, Keyword(d)) ensures d == Flag {
          KeywordsDisjoint(s, d, Flag);
        }
      }
      Some(Flag)
    else if HasPrefix(s, "default") then
      Some(Default)
    else
      None
  }

  /** One directive token of family `d` (parseENV, parseFlag, parseDefault):
      the `has*` flag is set; the `=VALUE` form also stores VALUE, and an
      empty VALUE is a format error. */
  function ParseDirective(t: TagInfo, d: Directive, s: string): (r: Result<TagInfo>)
    ensures r.Err? <==> s == WithValue(d)
    ensures r.Err? ==> r.error == InvalidTagFormat
    ensures r.Ok? ==> r.value.Has(d)
    ensures r.Ok? && HasPrefix(s, WithValue(d)) ==>
              r.value.Value(d) != "" && WithValue(d) + r.value.Value(d) == s
    ensures r.Ok? && !HasPrefix(s, WithValue(d)) ==> r.value.Value(d) == t.Value(d)
    ensures r.Ok? ==> forall e :: e != d ==> r.value.Has(e) == t.Has(e) && r.value.Value(e) == t.Value(e)
  {
    var marked := t.Mark(d);
    if HasPrefix(s, WithValue(d)) then
      var v := TrimPrefix(s, WithValue(d));
      if v == "" then
        assert s == WithValue(d) + v;
        Err(InvalidTagFormat)
      else
        Ok(marked.Store(d, v))
    else
      Ok(marked)
  }

  /** One token of the split annotation: directives are parsed, anything
      else leaves the set unchanged. */
  function ApplyToken(t: TagInfo, s: string): (r: Result<TagInfo>)
    ensures r.Err? ==> r.error == InvalidTagFormat
  {
    match Classify(s)
    case None => Ok(t)
    case Some(d) => ParseDirective(t, d, s)
  }

  /** The tokens in order, stopping at the first malformed directive. */
  function ParseTokens(t: TagInfo, tokens: seq<string>): (r: Result<TagInfo>)
    ensures r.Err? ==> r.error == InvalidTagFormat
    decreases |tokens|
  {
    if |tokens| == 0 then Ok(t)
    else
      var t' :- ApplyToken(t, tokens[0]);
      ParseTokens(t', tokens[1..])
  }

  /** parseTag: the annotation value (what `Tag.Get("config")` returns). */
  function ParseTag(annotation: string): (r: Result<TagInfo>)
    ensures r.Err? ==> r.error == InvalidTagFormat
  {
    ParseTokens(NoTag, Split(annotation, TagSeparator))
  }

  // ---------------------------------------------------------------------
  // A declarative reading of the annotation, and its agreement with the
  // token-by-token parser.

  /** `s` is the explicit-value form of `d`. */
  predicate IsExplicit(s: string, d: Directive) {
    HasPrefix(s, WithValue(d))
  }

  /** `s` is an explicit-value form with nothing after `=`. */
  predicate Malformed(s: string) {
    s == WithValue(Env) || s == WithValue(Flag) || s == WithValue(Default)
  }

  /** Some token names the family `d`, in either form. */
  predicate Mentions(tokens: seq<string>, d: Directive) {
    exists i :: 0 <= i < |tokens| && HasPrefix(tokens[i], Keyword(d))
  }

  /** The value of the LAST explicit `d` token, or `fallback` if there is none. */
  function LastExplicit(tokens: seq<string>, d: Directive, fallback: string): string {
    if |tokens| == 0 then fallback
    else
      var last := tokens[|tokens| - 1];
      if IsExplicit(last, d) then last[|WithValue(d)|..]
      else LastExplicit(tokens[..|tokens| - 1], d, fallback)
  }

  /** Reading the first token into the fallback. */
  lemma {:induction false} LastExplicitCons(x: string, rest: seq<string>, d: Directive, fallback: string)
    ensures LastExplicit([x] + rest, d, fallback)
         == LastExplicit(rest, d, if IsExplicit(x, d) then x[|WithValue(d)|..] else fallback)
  {
    if |rest| == 0 {
    } else {
      var all := [x] + rest;
      assert all[..|all| - 1] == [x] + rest[..|rest| - 1];
      assert all[|all| - 1] == rest[|rest| - 1];
      LastExplicitCons(x, rest[..|rest| - 1], d, fallback);
    }
  }

  /** A value other than the fallback comes from some token naming `d`. */
  lemma {:induction false} ExplicitMentions(tokens: seq<string>, d: Directive, fallback: string)
    requires LastExplicit(tokens, d, fallback) != fallback
    ensures Mentions(tokens, d)
    decreases |tokens|
  {
    var n := |tokens| - 1;
    if IsExplicit(tokens[n], d) {
      ExplicitIsClassified(tokens[n], d);
    } else {
      var front := tokens[..n];
      ExplicitMentions(front, d, fallback);
      var i :| 0 <= i < |front| && HasPrefix(front[i], Keyword(d));
      assert tokens[i] == front[i];
    }
  }

  /** The explicit form of `d` belongs to family `d`. */
  lemma ExplicitIsClassified(s: string, d: Directive)
    requires IsExplicit(s, d)
    ensures HasPrefix(s, Keyword(d)) && Classify(s) == Some(d)
  {
    assert s[..|Keyword(d)|] == s[..|WithValue(d)|][..|Keyword(d)|];
  }

  /** One token, declaratively. */
  lemma ApplyTokenSpec(t: TagInfo, x: string)
    ensures ApplyToken(t, x).Err? <==> Malformed(x)
    ensures ApplyToken(t, x).Ok? ==> forall d ::
              && ApplyToken(t, x).value.Has(d) == (t.Has(d) || HasPrefix(x, Keyword(d)))
              && ApplyToken(t, x).value.Value(d)
                 == if IsExplicit(x, d) then x[|WithValue(d)|..] else t.Value(d)
  {
    forall d | x == WithValue(d) ensures Classify(x) == Some(d) {
      ExplicitIsClassified(x, d);
    }
    forall d | IsExplicit(x, d) ensures Classify(x) == Some(d) {
      ExplicitIsClassified(x, d);
    }
    match Classify(x)
    case None =>
    case Some(c) =>
      var r := ParseDirective(t, c, x);
      if r.Ok? && IsExplicit(x, c) {
        assert WithValue(c) + r.value.Value(c) == x;
        assert x[|WithValue(c)|..] == r.value.Value(c);
      }
  }

  /** Some token is malformed: the first, or one of the others. */
  lemma MalformedCons(tokens: seq<string>)
    requires |tokens| > 0
    ensures (exists i :: 0 <= i < |tokens| && Malformed(tokens[i]))
        <==> Malformed(tokens[0]) || exists i :: 0 <= i < |tokens[1..]| && Malformed(tokens[1..][i])
  {
    if exists i :: 0 <= i < |tokens| && Malformed(tokens[i]) {
      var i :| 0 <= i < |tokens| && Malformed(tokens[i]);
      assert i == 0 || Malformed(tokens[1..][i - 1]);
    }
    if exists i :: 0 <= i < |tokens[1..]| && Malformed(tokens[1..][i]) {
      var i :| 0 <= i < |tokens[1..]| && Malformed(tokens[1..][i]);
      assert Malformed(tokens[i + 1]);
    }
  }

  /** Some token names `d`: the first, or one of the others. */
  lemma MentionsCons(tokens: seq<string>, d: Directive)
    requires |tokens| > 0
    ensures Mentions(tokens, d) <==> HasPrefix(tokens[0], Keyword(d)) || Mentions(tokens[1..], d)
  {
    if Mentions(tokens, d) {
      var i :| 0 <= i < |tokens| && HasPrefix(tokens[i], Keyword(d));
      assert i == 0 || HasPrefix(tokens[1..][i - 1], Keyword(d));
    }
    if Mentions(tokens[1..], d) {
      var i :| 0 <= i < |tokens[1..]| && HasPrefix(tokens[1..][i], Keyword(d));
      assert HasPrefix(tokens[i + 1], Keyword(d));
    }
  }

  /** The annotation parser agrees with the declarative reading: it fails
      exactly when some token is `env=`, `flag=` or `default=`; otherwise a
      family is present iff some token starts with its keyword, and its value
      is that of the last explicit token of the family (a later bare token
      does not clear it). */
  lemma {:induction false} ParseTokensSpec(t: TagInfo, tokens: seq<string>)
    ensures ParseTokens(t, tokens).Err? <==> exists i :: 0 <= i < |tokens| && Malformed(tokens[i])
    ensures ParseTokens(t, tokens).Ok? ==> forall d ::
              && ParseTokens(t, tokens).value.Has(d) == (t.Has(d) || Mentions(tokens, d))
              && ParseTokens(t, tokens).value.Value(d) == LastExplicit(tokens, d, t.Value(d))
    decreases |tokens|
  {
    if |tokens| > 0 {
      var x, rest := tokens[0], tokens[1..];
      assert tokens == [x] + rest;
      ApplyTokenSpec(t, x);
      MalformedCons(tokens);
      var a := ApplyToken(t, x);
      if a.Ok? {
        var r := ParseTokens(a.value, rest);
        assert ParseTokens(t, tokens) == r;
        ParseTokensSpec(a.value, rest);
        if r.Ok? {
          forall d ensures
            && r.value.Has(d) == (t.Has(d) || Mentions(tokens, d))
            && r.value.Value(d) == LastExplicit(tokens, d, t.Value(d))
          {
            LastExplicitCons(x, rest, d, t.Value(d));
            MentionsCons(tokens, d);
          }
        }
      }
    }
  }

  /** The annotation parser, stated over the comma-separated tokens. */
  lemma ParseTagSpec(annotation: string)
    ensures var tokens := Split(annotation, TagSeparator);
      && (ParseTag(annotation).Err? <==> exists i :: 0 <= i < |tokens| && Malformed(tokens[i]))
      && (ParseTag(annotation).Ok? ==> forall d ::
            && ParseTag(annotation).value.Has(d) == Mentions(tokens, d)
            && ParseTag(annotation).value.Value(d) == LastExplicit(tokens, d, ""))
  {
    ParseTokensSpec(NoTag, Split(annotation, TagSeparator));
  }

  /** An explicit value, once parsed, is never empty: the directive set keeps
      the invariant that an explicit value is non-empty. */
  lemma {:induction false} ParsedValuesNonEmptyOrAbsent(t: TagInfo, tokens: seq<string>, d: Directive)
    requires ParseTokens(t, tokens).Ok?
    requires t.Value(d) == "" || t.Has(d)
    ensures ParseTokens(t, tokens).value.Value(d) == "" || ParseTokens(t, tokens).value.Has(d)
    decreases |tokens|
  {
    if |tokens| > 0 {
      ApplyTokenSpec(t, tokens[0]);
      var a := ApplyToken(t, tokens[0]);
      if IsExplicit(tokens[0], d) {
        ExplicitIsClassified(tokens[0], d);
      }
      ParsedValuesNonEmptyOrAbsent(a.value, tokens[1..], d);
    }
  }

  /** A repeated directive: after a later explicit token the family holds
      that token's value; after a later bare token it keeps the value it had,
      since only the `has*` flag is set. */
  lemma RepeatedDirective(t: TagInfo, tokens: seq<string>, x: string, d: Directive)
    requires ParseTokens(t, tokens).Ok?
    requires HasPrefix(x, Keyword(d)) && !Malformed(x)
    ensures ParseTokens(t, tokens + [x]).Ok?
    ensures ParseTokens(t, tokens + [x]).value.Has(d)
    ensures IsExplicit(x, d) ==> ParseTokens(t, tokens + [x]).value.Value(d) == x[|WithValue(d)|..]
    ensures !IsExplicit(x, d) ==> ParseTokens(t, tokens + [x]).value.Value(d) == ParseTokens(t, tokens).value.Value(d)
  {
    var all := tokens + [x];
    ParseTokensSpec(t, tokens);
    ParseTokensSpec(t, all);
    assert all[..|all| - 1] == tokens;
    assert HasPrefix(all[|tokens|], Keyword(d));
  }

  /** A field without annotation, whose split is the single empty token, has
      no directive at all. */
  lemma EmptyAnnotation()
    ensures ParseTag("") == Ok(NoTag)
  {
    var parts := Split("", TagSeparator);
    JoinSplit("", TagSeparator);
    assert |parts| == 1 && parts[0] == "" && parts[1..] == [];
    assert Classify("") == None;
    assert ParseTokens(NoTag, parts) == ParseTokens(NoTag, parts[1..]);
  }
}

=== FILE: types.dfy ===
/** The part of Go's type and value model the library inspects through
    reflection, as finite trees: struct types with their field metadata,
    pointers, named types, and values in which pointers may be nil.

    Types that refer to themselves (`struct{ Next *T }`, or through a slice,
    a map or an unexported field) are infinite trees and are not
    representable here, whether or not the library terminates on them. It
    loops on an exported, validly annotated `Next *T` field (every nil `*T`
    is created and entered). It stops on the other forms: an unexported
    field is skipped, a slice or map is a leaf, a nil `Next **T` is left
    alone because its element is not a struct, and a malformed annotation
    fails right after the one pointer is created.
    Values are finite too, so a cycle of non-nil pointers, on which the
    library also loops, cannot be built. */
module Types {
  import opened Errors

  /** The kinds the model treats as having no inner structure to walk. */
  datatype AtomKind =
    | Bool | Int | Int8 | Int16 | Int32 | Int64
    | Uint | Uint8 | Uint16 | Uint32 | Uint64 | Uintptr
    | Float32 | Float64 | Complex64 | Complex128 | String
    | Array | Chan | Func | Interface | Map | UnsafePointer

  /** `reflect.Kind`. */
  datatype Kind = Atomic(atom: AtomKind) | Ptr | Slice | Struct

  datatype Type =
    | Basic(kind: AtomKind)
    | Named(name: string, underlying: Type)   // a defined type, e.g. time.Duration
    | PointerTo(elem: Type)
    | SliceOf(elem: Type)
    | StructOf(fields: seq<StructField>)

  /** `reflect.StructField`, reduced to what the library reads. `tag` is the
      value of the `config` key of the field's struct tag ("" when absent). */
  datatype StructField = StructField(
    name: string, typ: Type, exported: bool, anonymous: bool, tag: string)

  function KindOf(t: Type): Kind {
    match t
    case Basic(k) => Atomic(k)
    case Named(_, u) => KindOf(u)
    case PointerTo(_) => Ptr
    case SliceOf(_) => Slice
    case StructOf(_) => Struct
  }

  function MaxOf(xs: seq<nat>): (m: nat)
    ensures forall i :: 0 <= i < |xs| ==> xs[i] <= m
  {
    if |xs| == 0 then 0
    else
      var m := MaxOf(xs[1..]);
      if xs[0] > m then xs[0] else m
  }

  /** Nesting depth of a type; it bounds every traversal of the model. */
  function Depth(t: Type): nat {
    match t
    case Basic(_) => 0
    case Named(_, u) => 1 + Depth(u)
    case PointerTo(e) => 1 + Depth(e)
    case SliceOf(e) => 1 + Depth(e)
    case StructOf(fs) => 1 + MaxOf(seq(|fs|, i requires 0 <= i < |fs| => Depth(fs[i].typ)))
  }

  /** `Type.Elem()` of a pointer type. */
  function Elem(t: Type): (e: Type)
    requires KindOf(t) == Ptr
    ensures Depth(e) < Depth(t)
  {
    match t
    case PointerTo(e) => e
    case Named(_, u) => Elem(u)
  }

  /** The fields of a struct type, in declaration order. */
  function FieldsOf(t: Type): (fs: seq<StructField>)
    requires KindOf(t) == Struct
    ensures forall i :: 0 <= i < |fs| ==> Depth(fs[i].typ) < Depth(t)
  {
    match t
    case StructOf(fs) =>
      var ds := seq(|fs|, i requires 0 <= i < |fs| => Depth(fs[i].typ));
      assert forall i :: 0 <= i < |fs| ==> ds[i] == Depth(fs[i].typ);
      fs
    case Named(_, u) => FieldsOf(u)
  }

  /** time.Duration: a defined type over int64. */
  const DurationType: Type := Named("time.Duration", Basic(Int64))

  /** time.Location; its fields are unexported and never looked at. */
  const LocationType: Type := Named("time.Location", StructOf([
    StructField("name", Basic(String), false, false, "")]))

  /** time.Time: a struct with unexported fields only. */
  const TimeType: Type := Named("time.Time", StructOf([
    StructField("wall", Basic(Uint64), false, false, ""),
    StructField("ext", Basic(Int64), false, false, ""),
    StructField("loc", PointerTo(LocationType), false, false, "")]))

  const TimePtrType: Type := PointerTo(TimeType)

  /** The declared types the walker treats as opaque leaves. */
  predicate IsTimeType(t: Type) {
    t == TimeType || t == TimePtrType
  }

  /** Time fields are struct- or pointer-kinded, never plain. */
  lemma TimeTypesAreComposite(t: Type)
    ensures IsTimeType(t) ==> KindOf(t) == Struct || KindOf(t) == Ptr
  {
    assert KindOf(TimeType.underlying) == Struct;
  }

  /** A value in the struct being configured. Scalars, strings, slices, maps
      and the like carry no modelled content (`Plain`); pointers are nil or
      point at a value; structs hold one value per declared field. */
  datatype Value =
    | Plain(t: Type)
    | Nil(t: Type)
    | Ref(t: Type, target: Value)
    | Record(t: Type, fields: seq<Value>)

  /** The value agrees with its type all the way down. */
  predicate WellTyped(v: Value) {
    match v
    case Plain(t) => KindOf(t) != Ptr && KindOf(t) != Struct
    case Nil(t) => KindOf(t) == Ptr
    case Ref(t, x) => KindOf(t) == Ptr && x.t == Elem(t) && WellTyped(x)
    case Record(t, fs) =>
      && KindOf(t) == Struct
      && |fs| == |FieldsOf(t)|
      && forall i :: 0 <= i < |fs| ==> fs[i].t == FieldsOf(t)[i].typ && WellTyped(fs[i])
  }

  /** The zero value of a type (what `reflect.New(t).Elem()` holds): nil
      pointers, zero scalars, and structs of zero fields. */
  function Zero(t: Type): (z: Value)
    ensures z.t == t && WellTyped(z)
    ensures KindOf(t) == Struct <==> z.Record?
    ensures KindOf(t) == Ptr ==> z == Nil(t)
    ensures KindOf(t) != Ptr && KindOf(t) != Struct ==> z == Plain(t)
    decreases Depth(t)
  {
    match KindOf(t)
    case Ptr => Nil(t)
    case Struct =>
      var fs := FieldsOf(t);
      Record(t, seq(|fs|, i requires 0 <= i < |fs| => Zero(fs[i].typ)))
    case _ => Plain(t)
  }

  /** One step of a path into a value: a struct field, or through a pointer. */
  datatype Step = Field(index: nat) | Deref

  /** A storage location, as a path from a root value. */
  type Loc = seq<Step>

  /** The value stored at `loc`, if the path exists. */
  function At(v: Value, loc: Loc): Option<Value> {
    if |loc| == 0 then Some(v)
    else
      match loc[0]
      case Deref => if v.Ref? then At(v.target, loc[1..]) else None
      case Field(i) => if v.Record? && i < |v.fields| then At(v.fields[i], loc[1..]) else None
  }
}

=== FILE: walker.dfy ===
/** The struct walker (reflect.go, getStructInfo and getFieldInfo): flattens
    the exported fields of a struct, recursively, into an ordered catalog,
    auto-creating nil pointers to structs on the way. The walk returns the
    catalog together with the updated value, since auto-creation writes into
    the caller's struct. */
module Walker {
  import opened Errors
  import opened Strings
  import opened Tags
  import opened Types
  import opened Fields

  /** The outcome of walking one value: its catalog and its updated value. */
  datatype Walked = Walked(catalog: seq<FieldInfo>, tree: Value)

  /** The outcome of walking a run of sibling fields. */
  datatype WalkedFields = WalkedFields(catalog: seq<FieldInfo>, trees: seq<Value>)

  /** getFieldInfo: the entry of field `f`, stored at `at`, below `parent`;
      fails when the field's annotation does not parse. */
  function NewFieldInfo(f: StructField, at: Loc, parent: Option<FieldInfo>): (r: Result<FieldInfo>)
    ensures r.Ok? <==> ParseTag(f.tag).Ok?
    ensures r.Err? ==> r.error == InvalidTagFormat
    ensures r.Ok? ==> r.value == FieldInfo(parent, f, at, ParseTag(f.tag).value)
    ensures var tokens := Split(f.tag, TagSeparator);
      && (r.Ok? <==> forall i :: 0 <= i < |tokens| ==> !Malformed(tokens[i]))
      && (r.Ok? ==> forall d ::
            r.value.tag.Has(d) == Mentions(tokens, d) && r.value.tag.Value(d) == LastExplicit(tokens, d, ""))
  {
    ParseTagSpec(f.tag);
    var tag :- ParseTag(f.tag);
    Ok(FieldInfo(parent, f, at, tag))
  }

  // ---------------------------------------------------------------------
  // Vocabulary for the walker's contracts.

  /** An entry that may serve as a parent: an exported, non-embedded field
      that is not a time field. */
  predicate Interior(a: FieldInfo) {
    a.field.exported && !a.field.anonymous && !IsTimeType(a.field.typ)
  }

  /** `e` hangs below `p`: its parent chain reaches `p` through interior
      entries only. */
  predicate Under(e: FieldInfo, p: Option<FieldInfo>) {
    e.parent == p || (e.parent.Some? && Interior(e.parent.value) && Under(e.parent.value, p))
  }

  /** Every entry is an exported field whose annotation parsed to the entry's
      directive set, and hangs below `parent`. */
  predicate Sound(catalog: seq<FieldInfo>, parent: Option<FieldInfo>) {
    forall e :: e in catalog ==>
      && e.field.exported
      && ParseTag(e.field.tag) == Ok(e.tag)
      && Under(e, parent)
  }

  lemma {:induction false} UnderLift(e: FieldInfo, fi: FieldInfo, parent: Option<FieldInfo>)
    requires Under(e, Some(fi)) && fi.parent == parent && Interior(fi)
    ensures Under(e, parent)
    decreases e
  {
    if e.parent != Some(fi) {
      UnderLift(e.parent.value, fi, parent);
    }
  }

  /** Entries below an interior entry `fi` also hang below `fi`'s parent. */
  lemma SoundLift(catalog: seq<FieldInfo>, fi: FieldInfo, parent: Option<FieldInfo>)
    requires Sound(catalog, Some(fi)) && fi.parent == parent && Interior(fi)
    ensures Sound(catalog, parent)
  {
    forall e | e in catalog ensures Under(e, parent) {
      UnderLift(e, fi, parent);
    }
  }

  /** Every exported field reachable through structs and pointers in `t`
      carries a well-formed annotation. */
  predicate TagsValid(t: Type)
    decreases Depth(t)
  {
    match KindOf(t)
    case Ptr => TagsValid(Elem(t))
    case Struct =>
      var fs := FieldsOf(t);
      forall i :: 0 <= i < |fs| ==> fs[i].exported ==> ParseTag(fs[i].tag).Ok? && TagsValid(fs[i].typ)
    case _ => true
  }

  /** `after` is `before` with some nil pointers to structs replaced by
      pointers to a fresh zero struct (itself possibly extended in the same
      way), and nothing else changed. */
  predicate Extends(before: Value, after: Value)
    requires WellTyped(before)
    decreases Depth(before.t)
  {
    match before
    case Plain(_) => after == before
    case Nil(t) =>
      || after == before
      || (&& after.Ref? && after.t == t && KindOf(Elem(t)) == Struct
          && Extends(Zero(Elem(t)), after.target))
    case Ref(t, x) => after.Ref? && after.t == t && Extends(x, after.target)
    case Record(t, fs) =>
      && after.Record? && after.t == t && |after.fields| == |fs|
      && forall i :: 0 <= i < |fs| ==> Extends(fs[i], after.fields[i])
  }

  lemma {:induction false} ExtendsRefl(v: Value)
    requires WellTyped(v)
    ensures Extends(v, v)
    decreases Depth(v.t)
  {
    match v
    case Ref(_, x) => ExtendsRefl(x);
    case Record(t, fs) =>
      forall i | 0 <= i < |fs| ensures Extends(fs[i], fs[i]) {
        ExtendsRefl(fs[i]);
      }
    case _ =>
  }

  /** The values `fs` fit the fields of struct type `t` from index `i` on. */
  predicate FieldsFit(t: Type, fs: seq<Value>, i: nat) {
    && KindOf(t) == Struct
    && i + |fs| == |FieldsOf(t)|
    && forall j :: 0 <= j < |fs| ==> fs[j].t == FieldsOf(t)[i + j].typ && WellTyped(fs[j])
  }

  // ---------------------------------------------------------------------
  // The walk.

  /** getStructInfo: the input must be a non-nil pointer to a struct; the
      catalog lists the struct's fields, flattened, in declaration order. */
  function Build(root: Value): (r: Result<Walked>)
    requires WellTyped(root)
    ensures (r.Err? && r.error == InvalidConfig) <==> !(root.Ref? && root.target.Record?)
    ensures r.Err? ==> r.error == InvalidConfig || r.error == InvalidTagFormat
    ensures root.Ref? && root.target.Record? && TagsValid(root.target.t) ==> r.Ok?
    ensures r.Ok? ==> Sound(r.value.catalog, None) && WellTyped(r.value.tree) && Extends(root, r.value.tree)
  {
    if !root.Ref? then Err(InvalidConfig)
    else if !root.target.Record? then Err(InvalidConfig)
    else
      var w :- WalkStruct(root.target, [Deref], None);
      Ok(Walked(w.catalog, Ref(root.t, w.tree)))
  }

  /** The loop over the fields of one struct value stored at `at`. */
  function WalkStruct(sv: Value, at: Loc, parent: Option<FieldInfo>): (r: Result<Walked>)
    requires sv.Record? && WellTyped(sv)
    ensures r.Err? ==> r.error == InvalidTagFormat
    ensures TagsValid(sv.t) ==> r.Ok?
    ensures r.Ok? ==> Sound(r.value.catalog, parent) && WellTyped(r.value.tree) && Extends(sv, r.value.tree)
    decreases Depth(sv.t), 2
  {
    var w :- WalkFrom(sv.t, sv.fields, 0, at, parent);
    Ok(Walked(w.catalog, Record(sv.t, w.trees)))
  }

  /** The fields `fs` of struct type `t`, the first of them at index `i`:
      their catalogs concatenated in declaration order. */
  function WalkFrom(t: Type, fs: seq<Value>, i: nat, at: Loc, parent: Option<FieldInfo>)
    : (r: Result<WalkedFields>)
    requires FieldsFit(t, fs, i)
    ensures r.Err? ==> r.error == InvalidTagFormat
    ensures TagsValid(t) ==> r.Ok?
    ensures r.Ok? ==>
      && Sound(r.value.catalog, parent)
      && FieldsFit(t, r.value.trees, i)
      && forall j :: 0 <= j < |fs| ==> Extends(fs[j], r.value.trees[j])
    decreases Depth(t), 1, |fs|
  {
    if |fs| == 0 then Ok(WalkedFields([], []))
    else
      var w :- WalkField(FieldsOf(t)[i], fs[0], at + [Field(i)], parent);
      var rest :- WalkFrom(t, fs[1..], i + 1, at, parent);
      JoinFields(t, fs, i, w, rest, parent);
      Ok(WalkedFields(w.catalog + rest.catalog, [w.tree] + rest.trees))
  }

  /** The first field's walk put in front of the walk of the fields after it. */
  lemma JoinFields(t: Type, fs: seq<Value>, i: nat, w: Walked, rest: WalkedFields, parent: Option<FieldInfo>)
    requires FieldsFit(t, fs, i) && |fs| > 0
    requires Sound(w.catalog, parent) && WellTyped(w.tree) && w.tree.t == fs[0].t && Extends(fs[0], w.tree)
    requires Sound(rest.catalog, parent) && FieldsFit(t, rest.trees, i + 1)
    requires forall j :: 0 <= j < |fs| - 1 ==> Extends(fs[1..][j], rest.trees[j])
    ensures Sound(w.catalog + rest.catalog, parent)
    ensures FieldsFit(t, [w.tree] + rest.trees, i)
    ensures forall j :: 0 <= j < |fs| ==> Extends(fs[j], ([w.tree] + rest.trees)[j])
  {
    var trees := [w.tree] + rest.trees;
    forall j | 0 <= j < |fs| ensures Extends(fs[j], trees[j]) {
      if j > 0 {
        assert fs[j] == fs[1..][j - 1];
      }
    }
    forall j | 0 <= j < |trees| ensures trees[j].t == FieldsOf(t)[i + j].typ && WellTyped(trees[j]) {
      if j > 0 {
        assert trees[j] == rest.trees[j - 1];
      }
    }
  }

  /** One field: unexported fields are skipped, time fields are single
      leaves, everything else goes through pointer resolution. */
  function WalkField(f: StructField, fv: Value, at: Loc, parent: Option<FieldInfo>): (r: Result<Walked>)
    requires WellTyped(fv) && fv.t == f.typ
    ensures r.Err? ==> r.error == InvalidTagFormat
    ensures (!f.exported || (ParseTag(f.tag).Ok? && TagsValid(f.typ))) ==> r.Ok?
    ensures r.Ok? ==> Sound(r.value.catalog, parent) && WellTyped(r.value.tree) && Extends(fv, r.value.tree)
    ensures r.Ok? && !f.exported ==> r.value == Walked([], fv)
    ensures r.Ok? && f.exported && IsTimeType(f.typ) ==> r.value.tree == fv && |r.value.catalog| == 1
    ensures f.exported && ParseTag(f.tag).Err? ==> r.Err?
    decreases Depth(fv.t), 5
  {
    if !f.exported then
      ExtendsRefl(fv);
      Ok(Walked([], fv))
    else if IsTimeType(f.typ) then
      var fi :- NewFieldInfo(f, at, parent);
      ExtendsRefl(fv);
      Ok(Walked([fi], fv))
    else
      Descend(f, fv, at, parent)
  }

  /** The pointer loop: follow non-nil pointers; replace a nil pointer to a
      struct by a pointer to a fresh zero struct and enter it; stop at a nil
      pointer to anything else. */
  function Descend(f: StructField, fv: Value, at: Loc, parent: Option<FieldInfo>): (r: Result<Walked>)
    requires f.exported && !IsTimeType(f.typ) && WellTyped(fv)
    ensures r.Err? ==> r.error == InvalidTagFormat
    ensures ParseTag(f.tag).Ok? && TagsValid(fv.t) ==> r.Ok?
    ensures r.Ok? ==> Sound(r.value.catalog, parent) && WellTyped(r.value.tree) && Extends(fv, r.value.tree)
    ensures ParseTag(f.tag).Err? ==> r.Err?
    ensures r.Ok? && fv.Nil? && KindOf(Elem(fv.t)) == Struct ==>
              r.value.tree.Ref? && Extends(Zero(Elem(fv.t)), r.value.tree.target)
    ensures r.Ok? && fv.Nil? && KindOf(Elem(fv.t)) != Struct ==> r.value.tree == fv && |r.value.catalog| == 1
    decreases Depth(fv.t), 4
  {
    match fv
    case Ref(t, x) =>
      var w :- Descend(f, x, at + [Deref], parent);
      Ok(Walked(w.catalog, Ref(t, w.tree)))
    case Nil(t) =>
      if KindOf(Elem(t)) != Struct then
        Settle(f, fv, at, parent)
      else
        var w :- Settle(f, Zero(Elem(t)), at + [Deref], parent);
        Ok(Walked(w.catalog, Ref(t, w.tree)))
    case _ =>
      Settle(f, fv, at, parent)
  }

  /** After pointer resolution: a struct is entered (an embedded one passes
      its own parent through, any other becomes the parent of its
      descendants and is not listed itself); anything else is one leaf. */
  function Settle(f: StructField, fv: Value, at: Loc, parent: Option<FieldInfo>): (r: Result<Walked>)
    requires f.exported && !IsTimeType(f.typ) && WellTyped(fv) && !fv.Ref?
    ensures r.Err? ==> r.error == InvalidTagFormat
    ensures ParseTag(f.tag).Ok? && TagsValid(fv.t) ==> r.Ok?
    ensures r.Ok? ==> Sound(r.value.catalog, parent) && WellTyped(r.value.tree) && Extends(fv, r.value.tree)
    ensures r.Ok? && !fv.Record? ==> r.value.tree == fv && |r.value.catalog| == 1
    ensures ParseTag(f.tag).Err? ==> r.Err?
    decreases Depth(fv.t), 3
  {
    var fi :- NewFieldInfo(f, at, parent);
    if fv.Record? then
      if f.anonymous then
        WalkStruct(fv, at, parent)
      else
        var w :- WalkStruct(fv, at, Some(fi));
        SoundLift(w.catalog, fi, parent);
        Ok(w)
    else
      ExtendsRefl(fv);
      Ok(Walked([fi], fv))
  }
}

=== FILE: walker_lemmas.dfy ===
/** Properties of the struct walker that relate several walks: building the
    catalog again on the updated value changes nothing, and a struct of
    plain fields yields one entry per exported field. */
module WalkerProperties {
  import opened Errors
  import opened Tags
  import opened Types
  import opened Fields
  import opened Walker

  // ---------------------------------------------------------------------
  // Idempotence: once the nil struct pointers have been created, walking
  // again yields the same catalog and leaves the value as it is.

  /** One step of the field loop: a successful walk of fields `i..` is the
      walk `w` of field `i` joined with the walk `rest` of the fields after it. */
  lemma WalkFromStep(t: Type, fs: seq<Value>, i: nat, at: Loc, parent: Option<FieldInfo>)
      returns (w: Walked, rest: WalkedFields)
    requires FieldsFit(t, fs, i) && |fs| > 0 && WalkFrom(t, fs, i, at, parent).Ok?
    ensures WalkField(FieldsOf(t)[i], fs[0], at + [Field(i)], parent) == Ok(w)
    ensures WalkFrom(t, fs[1..], i + 1, at, parent) == Ok(rest)
    ensures WalkFrom(t, fs, i, at, parent) == Ok(WalkedFields(w.catalog + rest.catalog, [w.tree] + rest.trees))
  {
    FieldsFitTail(t, fs, i);
    w := WalkField(FieldsOf(t)[i], fs[0], at + [Field(i)], parent).value;
    rest := WalkFrom(t, fs[1..], i + 1, at, parent).value;
  }

  /** The values after the first still fit the fields after field `i`. */
  lemma FieldsFitTail(t: Type, fs: seq<Value>, i: nat)
    requires FieldsFit(t, fs, i) && |fs| > 0
    ensures WellTyped(fs[0]) && fs[0].t == FieldsOf(t)[i].typ
    ensures FieldsFit(t, fs[1..], i + 1)
  {
    assert fs[0].t == FieldsOf(t)[i + 0].typ;
    forall j | 0 <= j < |fs| - 1 ensures fs[1..][j].t == FieldsOf(t)[i + 1 + j].typ && WellTyped(fs[1..][j]) {
      assert fs[1..][j] == fs[j + 1];
    }
  }

  /** The loop over no fields yields nothing. */
  lemma WalkFromEmpty(t: Type, fs: seq<Value>, i: nat, at: Loc, parent: Option<FieldInfo>)
    requires FieldsFit(t, fs, i) && |fs| == 0
    ensures fs == [] && WalkFrom(t, fs, i, at, parent) == Ok(WalkedFields([], []))
  {
  }

  /** Conversely, when field `i` and the fields after it walk successfully,
      so do fields `i..`. */
  lemma WalkFromJoin(t: Type, fs: seq<Value>, i: nat, at: Loc, parent: Option<FieldInfo>, w: Walked, rest: WalkedFields)
    requires FieldsFit(t, fs, i) && |fs| > 0
    requires WalkField(FieldsOf(t)[i], fs[0], at + [Field(i)], parent) == Ok(w)
    requires WalkFrom(t, fs[1..], i + 1, at, parent) == Ok(rest)
    ensures WalkFrom(t, fs, i, at, parent) == Ok(WalkedFields(w.catalog + rest.catalog, [w.tree] + rest.trees))
  {
  }

  lemma {:induction false} BuildIdempotent(root: Value)
    requires WellTyped(root) && Build(root).Ok?
    ensures Build(Build(root).value.tree) == Build(root)
  {
    WalkStructIdempotent(root.target, [Deref], None);
  }

  lemma {:induction false} WalkStructIdempotent(sv: Value, at: Loc, parent: Option<FieldInfo>)
    requires sv.Record? && WellTyped(sv) && WalkStruct(sv, at, parent).Ok?
    ensures var w := WalkStruct(sv, at, parent).value;
      w.tree.Record? && WellTyped(w.tree) && WalkStruct(w.tree, at, parent) == Ok(w)
    decreases Depth(sv.t), 2
  {
    WalkFromIdempotent(sv.t, sv.fields, 0, at, parent);
  }

  lemma {:induction false} WalkFromIdempotent(t: Type, fs: seq<Value>, i: nat, at: Loc, parent: Option<FieldInfo>)
    requires FieldsFit(t, fs, i) && WalkFrom(t, fs, i, at, parent).Ok?
    ensures var w := WalkFrom(t, fs, i, at, parent).value;
      FieldsFit(t, w.trees, i) && WalkFrom(t, w.trees, i, at, parent) == Ok(w)
    decreases Depth(t), 1, |fs|, 1
  {
    if |fs| == 0 {
      WalkFromEmpty(t, fs, i, at, parent);
    } else {
      var w, rest := WalkFromStep(t, fs, i, at, parent);
      WalkFromIdempotentCons(t, fs, i, at, parent, w, rest);
    }
  }

  lemma {:induction false} WalkFromIdempotentCons(t: Type, fs: seq<Value>, i: nat, at: Loc, parent: Option<FieldInfo>, w: Walked, rest: WalkedFields)
    requires FieldsFit(t, fs, i) && |fs| > 0
    requires WalkField(FieldsOf(t)[i], fs[0], at + [Field(i)], parent) == Ok(w)
    requires WalkFrom(t, fs[1..], i + 1, at, parent) == Ok(rest)
    ensures FieldsFit(t, [w.tree] + rest.trees, i)
    ensures WalkFrom(t, [w.tree] + rest.trees, i, at, parent) == Ok(WalkedFields(w.catalog + rest.catalog, [w.tree] + rest.trees))
    decreases Depth(t), 1, |fs|, 0
  {
    FieldsFitTail(t, fs, i);
    WalkFieldIdempotent(FieldsOf(t)[i], fs[0], at + [Field(i)], parent);
    WalkFromIdempotent(t, fs[1..], i + 1, at, parent);
    RewalkJoin(t, i, at, parent, w, rest);
  }

  /** Walking again the joined result of field `i` and of the fields after
      it, each of which walks again to itself, gives the joined result. */
  lemma RewalkJoin(t: Type, i: nat, at: Loc, parent: Option<FieldInfo>, w: Walked, rest: WalkedFields)
    requires KindOf(t) == Struct && i < |FieldsOf(t)|
    requires WellTyped(w.tree) && w.tree.t == FieldsOf(t)[i].typ
    requires WalkField(FieldsOf(t)[i], w.tree, at + [Field(i)], parent) == Ok(w)
    requires FieldsFit(t, rest.trees, i + 1) && WalkFrom(t, rest.trees, i + 1, at, parent) == Ok(rest)
    ensures FieldsFit(t, [w.tree] + rest.trees, i)
    ensures WalkFrom(t, [w.tree] + rest.trees, i, at, parent) == Ok(WalkedFields(w.catalog + rest.catalog, [w.tree] + rest.trees))
  {
    var trees := [w.tree] + rest.trees;
    assert trees[0] == w.tree && trees[1..] == rest.trees;
    forall j | 0 <= j < |trees| ensures trees[j].t == FieldsOf(t)[i + j].typ && WellTyped(trees[j]) {
      if j > 0 {
        assert trees[j] == rest.trees[j - 1];
      }
    }
    WalkFromJoin(t, trees, i, at, parent, w, rest);
  }

  lemma {:induction false} WalkFieldIdempotent(f: StructField, fv: Value, at: Loc, parent: Option<FieldInfo>)
    requires WellTyped(fv) && fv.t == f.typ && WalkField(f, fv, at, parent).Ok?
    ensures var w := WalkField(f, fv, at, parent).value;
      WellTyped(w.tree) && w.tree.t == f.typ && WalkField(f, w.tree, at, parent) == Ok(w)
    decreases Depth(fv.t), 5
  {
    if f.exported && !IsTimeType(f.typ) {
      DescendIdempotent(f, fv, at, parent);
    }
  }

  lemma {:induction false} DescendIdempotent(f: StructField, fv: Value, at: Loc, parent: Option<FieldInfo>)
    requires f.exported && !IsTimeType(f.typ) && WellTyped(fv) && Descend(f, fv, at, parent).Ok?
    ensures var w := Descend(f, fv, at, parent).value;
      WellTyped(w.tree) && w.tree.t == fv.t && Descend(f, w.tree, at, parent) == Ok(w)
    decreases Depth(fv.t), 4
  {
    match fv
    case Ref(t, x) =>
      DescendIdempotent(f, x, at + [Deref], parent);
    case Nil(t) =>
      if KindOf(Elem(t)) == Struct {
        var z := Zero(Elem(t));
        SettleIdempotent(f, z, at + [Deref], parent);
        var w := Settle(f, z, at + [Deref], parent).value;
        assert w.tree.Record?;
      }
    case _ =>
      SettleIdempotent(f, fv, at, parent);
  }

  lemma {:induction false} SettleIdempotent(f: StructField, fv: Value, at: Loc, parent: Option<FieldInfo>)
    requires f.exported && !IsTimeType(f.typ) && WellTyped(fv) && !fv.Ref?
    requires Settle(f, fv, at, parent).Ok?
    ensures var w := Settle(f, fv, at, parent).value;
      && WellTyped(w.tree) && w.tree.t == fv.t && !w.tree.Ref? && (w.tree.Record? <==> fv.Record?)
      && Settle(f, w.tree, at, parent) == Ok(w)
    decreases Depth(fv.t), 3
  {
    if fv.Record? {
      var fi := NewFieldInfo(f, at, parent).value;
      WalkStructIdempotent(fv, at, if f.anonymous then parent else Some(fi));
    }
  }

  // ---------------------------------------------------------------------
  // A malformed annotation on any exported field of a visited struct aborts
  // the whole build, whether or not the field itself would be listed.

  /** A failing field makes the loop over the fields from `i` on fail. */
  lemma WalkFromFails(t: Type, fs: seq<Value>, i: nat, at: Loc, parent: Option<FieldInfo>)
    requires FieldsFit(t, fs, i) && |fs| > 0
    requires WalkField(FieldsOf(t)[i], fs[0], at + [Field(i)], parent).Err?
          || WalkFrom(t, fs[1..], i + 1, at, parent).Err?
    ensures WalkFrom(t, fs, i, at, parent).Err?
  {
    FieldsFitTail(t, fs, i);
  }

  lemma {:induction false} BadTagAbortsFields(t: Type, fs: seq<Value>, i: nat, at: Loc, parent: Option<FieldInfo>, j: nat)
    requires FieldsFit(t, fs, i) && i <= j < i + |fs|
    requires FieldsOf(t)[j].exported && ParseTag(FieldsOf(t)[j].tag).Err?
    ensures WalkFrom(t, fs, i, at, parent).Err?
    decreases |fs|
  {
    FieldsFitTail(t, fs, i);
    if j > i {
      BadTagAbortsFields(t, fs[1..], i + 1, at, parent, j);
    }
    WalkFromFails(t, fs, i, at, parent);
  }

  /** The build fails as soon as one exported field of the root struct has a
      malformed annotation, even a struct-typed field that would not be
      listed itself; no partial catalog is returned. */
  lemma BadTagAbortsBuild(root: Value, j: nat)
    requires WellTyped(root) && root.Ref? && root.target.Record? && KindOf(root.target.t) == Struct
    requires j < |FieldsOf(root.target.t)|
    requires FieldsOf(root.target.t)[j].exported && ParseTag(FieldsOf(root.target.t)[j].tag).Err?
    ensures Build(root) == Err(InvalidTagFormat)
  {
    BadTagAbortsFields(root.target.t, root.target.fields, 0, [Deref], None, j);
  }

  // ---------------------------------------------------------------------
  // A struct whose fields are neither pointers nor structs: one entry per
  // exported field, in declaration order, all at the level of `parent`.

  /** The exported fields among `fs`, in order. */
  function Exported(fs: seq<StructField>): seq<StructField> {
    if |fs| == 0 then []
    else if fs[0].exported then [fs[0]] + Exported(fs[1..])
    else Exported(fs[1..])
  }

  /** The declared fields of the catalog's entries, in order. */
  function FieldsOfCatalog(catalog: seq<FieldInfo>): (r: seq<StructField>)
    ensures |r| == |catalog|
    ensures forall k :: 0 <= k < |catalog| ==> r[k] == catalog[k].field
  {
    if |catalog| == 0 then [] else [catalog[0].field] + FieldsOfCatalog(catalog[1..])
  }

  /** A field the walker lists as a single leaf without looking through it. */
  predicate PlainField(g: StructField) {
    KindOf(g.typ) != Ptr && KindOf(g.typ) != Struct
  }

  /** A plain field is listed once when exported and not at all otherwise. */
  lemma PlainWalkField(f: StructField, fv: Value, at: Loc, parent: Option<FieldInfo>)
    requires PlainField(f) && WellTyped(fv) && fv.t == f.typ && WalkField(f, fv, at, parent).Ok?
    ensures f.exported ==>
              && ParseTag(f.tag).Ok?
              && WalkField(f, fv, at, parent).value.catalog == [FieldInfo(parent, f, at, ParseTag(f.tag).value)]
    ensures !f.exported ==> WalkField(f, fv, at, parent).value.catalog == []
  {
    assert fv.Plain?;
    if f.exported {
      TimeTypesAreComposite(f.typ);
      assert WalkField(f, fv, at, parent) == Descend(f, fv, at, parent) == Settle(f, fv, at, parent);
    }
  }

  lemma {:induction false} FieldsOfCatalogAppend(a: seq<FieldInfo>, b: seq<FieldInfo>)
    ensures FieldsOfCatalog(a + b) == FieldsOfCatalog(a) + FieldsOfCatalog(b)
    decreases |a|
  {
    if |a| > 0 {
      assert (a + b)[1..] == a[1..] + b;
      FieldsOfCatalogAppend(a[1..], b);
    } else {
      assert a + b == b;
    }
  }

  /** One plain field's entries followed by the entries of the fields after it. */
  lemma FlatCons(f: StructField, tail: seq<StructField>, wc: seq<FieldInfo>, rc: seq<FieldInfo>, parent: Option<FieldInfo>)
    requires f.exported ==> |wc| == 1 && wc[0].field == f && wc[0].parent == parent
    requires !f.exported ==> wc == []
    requires FieldsOfCatalog(rc) == Exported(tail) && forall k :: 0 <= k < |rc| ==> rc[k].parent == parent
    ensures FieldsOfCatalog(wc + rc) == Exported([f] + tail)
    ensures forall k :: 0 <= k < |wc + rc| ==> (wc + rc)[k].parent == parent
  {
    FieldsOfCatalogAppend(wc, rc);
    assert ([f] + tail)[1..] == tail;
  }

  lemma {:induction false} FlatWalkFrom(t: Type, fs: seq<Value>, i: nat, at: Loc, parent: Option<FieldInfo>)
    requires FieldsFit(t, fs, i) && WalkFrom(t, fs, i, at, parent).Ok?
    requires forall j :: i <= j < |FieldsOf(t)| ==> PlainField(FieldsOf(t)[j])
    ensures var c := WalkFrom(t, fs, i, at, parent).value.catalog;
      && FieldsOfCatalog(c) == Exported(FieldsOf(t)[i..])
      && forall k :: 0 <= k < |c| ==> c[k].parent == parent
    decreases |fs|, 1
  {
    if |fs| == 0 {
      WalkFromEmpty(t, fs, i, at, parent);
      assert FieldsOf(t)[i..] == [];
    } else {
      var w, rest := WalkFromStep(t, fs, i, at, parent);
      FlatWalkFromCons(t, fs, i, at, parent, w, rest);
    }
  }

  lemma {:induction false} FlatWalkFromCons(t: Type, fs: seq<Value>, i: nat, at: Loc, parent: Option<FieldInfo>, w: Walked, rest: WalkedFields)
    requires FieldsFit(t, fs, i) && |fs| > 0
    requires forall j :: i <= j < |FieldsOf(t)| ==> PlainField(FieldsOf(t)[j])
    requires WalkField(FieldsOf(t)[i], fs[0], at + [Field(i)], parent) == Ok(w)
    requires WalkFrom(t, fs[1..], i + 1, at, parent) == Ok(rest)
    ensures FieldsOfCatalog(w.catalog + rest.catalog) == Exported(FieldsOf(t)[i..])
    ensures forall k :: 0 <= k < |w.catalog + rest.catalog| ==> (w.catalog + rest.catalog)[k].parent == parent
    decreases |fs|, 0
  {
    var all := FieldsOf(t);
    FieldsFitTail(t, fs, i);
    FlatWalkFrom(t, fs[1..], i + 1, at, parent);
    PlainWalkField(all[i], fs[0], at + [Field(i)], parent);
    FlatCons(all[i], all[i + 1..], w.catalog, rest.catalog, parent);
    assert all[i..] == [all[i]] + all[i + 1..];
  }

  /** For a struct with no pointer, struct or embedded-struct fields, the
      catalog has exactly one entry per exported field, in declaration
      order, each at root level. */
  lemma FlatStructCatalog(root: Value)
    requires WellTyped(root) && root.Ref? && root.target.Record? && KindOf(root.target.t) == Struct
    requires forall g :: g in FieldsOf(root.target.t) ==> PlainField(g)
    requires Build(root).Ok?
    ensures FieldsOfCatalog(Build(root).value.catalog) == Exported(FieldsOf(root.target.t))
    ensures forall e :: e in Build(root).value.catalog ==> e.parent.None?
  {
    var sv := root.target;
    FlatWalkFrom(sv.t, sv.fields, 0, [Deref], None);
    assert FieldsOf(sv.t)[0..] == FieldsOf(sv.t);
  }

  // ---------------------------------------------------------------------
  // Handles: every entry's location resolves, in the updated value, to the
  // value the entry describes.

  /** What an entry describes: a time field exactly as declared (never
      dereferenced), anything else after pointer resolution, which leaves a
      non-struct value or a nil pointer to a non-struct; never a struct. */
  predicate LeafValue(e: FieldInfo, v: Value) {
    if IsTimeType(e.field.typ) then v.t == e.field.typ
    else v.Plain? || (v.Nil? && KindOf(v.t) == Ptr && KindOf(Elem(v.t)) != Struct)
  }

  /** `e`'s location extends `at`, and the rest of it leads, inside `v`, to
      the value `e` describes. */
  predicate HandleIn(e: FieldInfo, at: Loc, v: Value) {
    && |at| <= |e.loc| && e.loc[..|at|] == at
    && At(v, e.loc[|at|..]).Some? && LeafValue(e, At(v, e.loc[|at|..]).value)
  }

  predicate HandlesIn(catalog: seq<FieldInfo>, at: Loc, v: Value) {
    forall e :: e in catalog ==> HandleIn(e, at, v)
  }

  lemma HandleThroughField(e: FieldInfo, at: Loc, t: Type, fields: seq<Value>, i: nat)
    requires i < |fields| && HandleIn(e, at + [Field(i)], fields[i])
    ensures HandleIn(e, at, Record(t, fields))
  {
    var k := |at|;
    assert e.loc[..k] == (at + [Field(i)])[..k] == at;
    assert e.loc[k] == Field(i);
    assert e.loc[k..][1..] == e.loc[k + 1..];
  }

  lemma HandleThroughPointer(e: FieldInfo, at: Loc, t: Type, x: Value)
    requires HandleIn(e, at + [Deref], x)
    ensures HandleIn(e, at, Ref(t, x))
  {
    var k := |at|;
    assert e.loc[..k] == (at + [Deref])[..k] == at;
    assert e.loc[k] == Deref;
    assert e.loc[k..][1..] == e.loc[k + 1..];
  }

  lemma {:induction false} BuildHandles(root: Value)
    requires WellTyped(root) && Build(root).Ok?
    ensures HandlesIn(Build(root).value.catalog, [], Build(root).value.tree)
  {
    var w := WalkStruct(root.target, [Deref], None).value;
    WalkStructHandles(root.target, [Deref], None);
    forall e | e in w.catalog ensures HandleIn(e, [], Ref(root.t, w.tree)) {
      HandleThroughPointer(e, [], root.t, w.tree);
    }
  }

  lemma {:induction false} WalkStructHandles(sv: Value, at: Loc, parent: Option<FieldInfo>)
    requires sv.Record? && WellTyped(sv) && WalkStruct(sv, at, parent).Ok?
    ensures HandlesIn(WalkStruct(sv, at, parent).value.catalog, at, WalkStruct(sv, at, parent).value.tree)
    decreases Depth(sv.t), 2
  {
    WalkFromHandles(sv.t, sv.fields, 0, at, parent, []);
    var w := WalkFrom(sv.t, sv.fields, 0, at, parent).value;
    assert [] + w.trees == w.trees;
  }

  lemma {:induction false} WalkFromHandles(t: Type, fs: seq<Value>, i: nat, at: Loc, parent: Option<FieldInfo>, done: seq<Value>)
    requires FieldsFit(t, fs, i) && WalkFrom(t, fs, i, at, parent).Ok? && |done| == i
    ensures var w := WalkFrom(t, fs, i, at, parent).value;
      HandlesIn(w.catalog, at, Record(t, done + w.trees))
    decreases Depth(t), 1, |fs|, 1
  {
    if |fs| == 0 {
      WalkFromEmpty(t, fs, i, at, parent);
    } else {
      var w, rest := WalkFromStep(t, fs, i, at, parent);
      WalkFromHandlesCons(t, fs, i, at, parent, done, w, rest);
    }
  }

  lemma {:induction false} WalkFromHandlesCons(t: Type, fs: seq<Value>, i: nat, at: Loc, parent: Option<FieldInfo>, done: seq<Value>, w: Walked, rest: WalkedFields)
    requires FieldsFit(t, fs, i) && |fs| > 0 && |done| == i
    requires WalkField(FieldsOf(t)[i], fs[0], at + [Field(i)], parent) == Ok(w)
    requires WalkFrom(t, fs[1..], i + 1, at, parent) == Ok(rest)
    ensures HandlesIn(w.catalog + rest.catalog, at, Record(t, done + ([w.tree] + rest.trees)))
    decreases Depth(t), 1, |fs|, 0
  {
    FieldsFitTail(t, fs, i);
    WalkFieldHandles(FieldsOf(t)[i], fs[0], at + [Field(i)], parent);
    WalkFromHandles(t, fs[1..], i + 1, at, parent, done + [w.tree]);
    HandlesJoin(w.catalog, rest.catalog, at, t, done, w.tree, rest.trees);
  }

  /** The entries of field `|done|`, then those of the fields after it, in
      the struct value whose fields are `done`, that field, and the rest. */
  lemma HandlesJoin(wc: seq<FieldInfo>, rc: seq<FieldInfo>, at: Loc, t: Type, done: seq<Value>, x: Value, after: seq<Value>)
    requires HandlesIn(wc, at + [Field(|done|)], x)
    requires HandlesIn(rc, at, Record(t, (done + [x]) + after))
    ensures HandlesIn(wc + rc, at, Record(t, done + ([x] + after)))
  {
    var all := done + ([x] + after);
    assert (done + [x]) + after == all;
    assert all[|done|] == x;
    forall e | e in wc ensures HandleIn(e, at, Record(t, all)) {
      HandleThroughField(e, at, t, all, |done|);
    }
  }

  lemma {:induction false} WalkFieldHandles(f: StructField, fv: Value, at: Loc, parent: Option<FieldInfo>)
    requires WellTyped(fv) && fv.t == f.typ && WalkField(f, fv, at, parent).Ok?
    ensures HandlesIn(WalkField(f, fv, at, parent).value.catalog, at, WalkField(f, fv, at, parent).value.tree)
    decreases Depth(fv.t), 5
  {
    if f.exported {
      if IsTimeType(f.typ) {
        var w := WalkField(f, fv, at, parent).value;
        assert w.catalog == [NewFieldInfo(f, at, parent).value];
        assert at[|at|..] == [];
      } else {
        DescendHandles(f, fv, at, parent);
      }
    }
  }

  lemma {:induction false} DescendHandles(f: StructField, fv: Value, at: Loc, parent: Option<FieldInfo>)
    requires f.exported && !IsTimeType(f.typ) && WellTyped(fv) && Descend(f, fv, at, parent).Ok?
    ensures HandlesIn(Descend(f, fv, at, parent).value.catalog, at, Descend(f, fv, at, parent).value.tree)
    decreases Depth(fv.t), 4
  {
    match fv
    case Ref(t, x) =>
      DescendHandles(f, x, at + [Deref], parent);
      var w := Descend(f, x, at + [Deref], parent).value;
      forall e | e in w.catalog ensures HandleIn(e, at, Ref(t, w.tree)) {
        HandleThroughPointer(e, at, t, w.tree);
      }
    case Nil(t) =>
      if KindOf(Elem(t)) == Struct {
        var z := Zero(Elem(t));
        SettleHandles(f, z, at + [Deref], parent);
        var w := Settle(f, z, at + [Deref], parent).value;
        forall e | e in w.catalog ensures HandleIn(e, at, Ref(t, w.tree)) {
          HandleThroughPointer(e, at, t, w.tree);
        }
      } else {
        SettleHandles(f, fv, at, parent);
      }
    case _ =>
      SettleHandles(f, fv, at, parent);
  }

  lemma {:induction false} SettleHandles(f: StructField, fv: Value, at: Loc, parent: Option<FieldInfo>)
    requires f.exported && !IsTimeType(f.typ) && WellTyped(fv) && !fv.Ref?
    requires fv.Nil? ==> KindOf(Elem(fv.t)) != Struct
    requires Settle(f, fv, at, parent).Ok?
    ensures HandlesIn(Settle(f, fv, at, parent).value.catalog, at, Settle(f, fv, at, parent).value.tree)
    decreases Depth(fv.t), 3
  {
    var fi := NewFieldInfo(f, at, parent).value;
    if fv.Record? {
      WalkStructHandles(fv, at, if f.anonymous then parent else Some(fi));
    } else {
      assert Settle(f, fv, at, parent).value == Walked([fi], fv);
      assert at[|at|..] == [];
    }
  }

  // ---------------------------------------------------------------------
  // Struct fields: a named struct field is the parent of its descendants
  // and is not listed itself; an embedded one is transparent.

  /** An entry hanging below `p` is nested deeper than `p`, so it is not `p`. */
  lemma {:induction false} UnderIsDeeper(e: FieldInfo, p: FieldInfo)
    requires Under(e, Some(p))
    ensures Nesting(e) > Nesting(p)
    decreases e
  {
    if e.parent != Some(p) {
      UnderIsDeeper(e.parent.value, p);
    }
  }

  /** A field whose value is a struct after pointer resolution: when it is
      not embedded, all entries of the struct hang below the field's own
      entry, which is not among them; when it is embedded, they hang below
      the field's parent directly. */
  lemma StructFieldIsParent(f: StructField, fv: Value, at: Loc, parent: Option<FieldInfo>)
    requires f.exported && !IsTimeType(f.typ) && WellTyped(fv) && fv.Record?
    requires Settle(f, fv, at, parent).Ok?
    ensures ParseTag(f.tag).Ok?
    ensures var fi := FieldInfo(parent, f, at, ParseTag(f.tag).value);
      && (!f.anonymous ==> forall e :: e in Settle(f, fv, at, parent).value.catalog ==> Under(e, Some(fi)) && e != fi)
      && (f.anonymous ==> Settle(f, fv, at, parent) == WalkStruct(fv, at, parent))
  {
    var fi := NewFieldInfo(f, at, parent).value;
    if !f.anonymous {
      var w := WalkStruct(fv, at, Some(fi)).value;
      forall e | e in w.catalog ensures Under(e, Some(fi)) && e != fi {
        UnderIsDeeper(e, fi);
      }
    }
  }

  // ---------------------------------------------------------------------
  // Auto-creation: after a successful walk, no nil pointer to a struct is
  // left anywhere the walk enters; nil pointers to anything else stay nil.

  /** A field the walk looks through: exported and not a time field. */
  predicate Entered(g: StructField) {
    g.exported && !IsTimeType(g.typ)
  }

  /** Every pointer chain reachable through entered fields ends in a
      non-pointer value or a nil pointer to a non-struct. */
  predicate Resolved(v: Value) {
    match v
    case Plain(_) => true
    case Nil(t) => KindOf(t) == Ptr && KindOf(Elem(t)) != Struct
    case Ref(_, x) => Resolved(x)
    case Record(t, fs) =>
      && KindOf(t) == Struct && |fs| == |FieldsOf(t)|
      && forall j :: 0 <= j < |fs| ==> Entered(FieldsOf(t)[j]) ==> Resolved(fs[j])
  }

  /** The values `trees` of the fields of `t` from index `i` on are resolved
      where the field is entered. */
  predicate FieldsResolved(t: Type, trees: seq<Value>, i: nat)
    requires KindOf(t) == Struct && i + |trees| <= |FieldsOf(t)|
  {
    forall j :: 0 <= j < |trees| ==> Entered(FieldsOf(t)[i + j]) ==> Resolved(trees[j])
  }

  /** A successful build leaves every nil struct pointer it passes created. */
  lemma {:induction false} BuildResolves(root: Value)
    requires WellTyped(root) && Build(root).Ok?
    ensures Resolved(Build(root).value.tree)
  {
    WalkStructResolves(root.target, [Deref], None);
  }

  lemma {:induction false} WalkStructResolves(sv: Value, at: Loc, parent: Option<FieldInfo>)
    requires sv.Record? && WellTyped(sv) && WalkStruct(sv, at, parent).Ok?
    ensures Resolved(WalkStruct(sv, at, parent).value.tree)
    decreases Depth(sv.t), 2
  {
    WalkFromResolves(sv.t, sv.fields, 0, at, parent);
    var w := WalkFrom(sv.t, sv.fields, 0, at, parent).value;
    forall j | 0 <= j < |w.trees| && Entered(FieldsOf(sv.t)[j]) ensures Resolved(w.trees[j]) {
      assert FieldsOf(sv.t)[0 + j] == FieldsOf(sv.t)[j];
    }
  }

  lemma {:induction false} WalkFromResolves(t: Type, fs: seq<Value>, i: nat, at: Loc, parent: Option<FieldInfo>)
    requires FieldsFit(t, fs, i) && WalkFrom(t, fs, i, at, parent).Ok?
    ensures FieldsResolved(t, WalkFrom(t, fs, i, at, parent).value.trees, i)
    decreases Depth(t), 1, |fs|, 1
  {
    if |fs| == 0 {
      WalkFromEmpty(t, fs, i, at, parent);
    } else {
      var w, rest := WalkFromStep(t, fs, i, at, parent);
      WalkFromResolvesCons(t, fs, i, at, parent, w, rest);
    }
  }

  lemma {:induction false} WalkFromResolvesCons(t: Type, fs: seq<Value>, i: nat, at: Loc, parent: Option<FieldInfo>, w: Walked, rest: WalkedFields)
    requires FieldsFit(t, fs, i) && |fs| > 0
    requires WalkField(FieldsOf(t)[i], fs[0], at + [Field(i)], parent) == Ok(w)
    requires WalkFrom(t, fs[1..], i + 1, at, parent) == Ok(rest)
    ensures FieldsResolved(t, [w.tree] + rest.trees, i)
    decreases Depth(t), 1, |fs|, 0
  {
    FieldsFitTail(t, fs, i);
    WalkFieldResolves(FieldsOf(t)[i], fs[0], at + [Field(i)], parent);
    WalkFromResolves(t, fs[1..], i + 1, at, parent);
    var trees := [w.tree] + rest.trees;
    forall j | 0 <= j < |trees| && Entered(FieldsOf(t)[i + j]) ensures Resolved(trees[j]) {
      if j > 0 {
        assert trees[j] == rest.trees[j - 1];
        assert FieldsOf(t)[i + j] == FieldsOf(t)[(i + 1) + (j - 1)];
      }
    }
  }

  lemma {:induction false} WalkFieldResolves(f: StructField, fv: Value, at: Loc, parent: Option<FieldInfo>)
    requires WellTyped(fv) && fv.t == f.typ && WalkField(f, fv, at, parent).Ok?
    ensures Entered(f) ==> Resolved(WalkField(f, fv, at, parent).value.tree)
    decreases Depth(fv.t), 5
  {
    if Entered(f) {
      DescendResolves(f, fv, at, parent);
    }
  }

  lemma {:induction false} DescendResolves(f: StructField, fv: Value, at: Loc, parent: Option<FieldInfo>)
    requires f.exported && !IsTimeType(f.typ) && WellTyped(fv) && Descend(f, fv, at, parent).Ok?
    ensures Resolved(Descend(f, fv, at, parent).value.tree)
    decreases Depth(fv.t), 4
  {
    match fv
    case Ref(t, x) =>
      DescendResolves(f, x, at + [Deref], parent);
    case Nil(t) =>
      if KindOf(Elem(t)) == Struct {
        SettleResolves(f, Zero(Elem(t)), at + [Deref], parent);
      } else {
        SettleResolves(f, fv, at, parent);
      }
    case _ =>
      SettleResolves(f, fv, at, parent);
  }

  lemma {:induction false} SettleResolves(f: StructField, fv: Value, at: Loc, parent: Option<FieldInfo>)
    requires f.exported && !IsTimeType(f.typ) && WellTyped(fv) && !fv.Ref?
    requires fv.Nil? ==> KindOf(Elem(fv.t)) != Struct
    requires Settle(f, fv, at, parent).Ok?
    ensures Resolved(Settle(f, fv, at, parent).value.tree)
    decreases Depth(fv.t), 3
  {
    var fi := NewFieldInfo(f, at, parent).value;
    if fv.Record? {
      WalkStructResolves(fv, at, if f.anonymous then parent else Some(fi));
    }
  }
}
